=== FILE: README.md ===
# Race engine of a 1-D cycling simulator, in Dafny

This project models the per-timestep race engine of `cycling_sim` and proves
properties about it. The engine covers the following:

- the gradient lookup along a course made of constant-gradient segments;
- the resistive forces and one explicit Euler step of a rider's speed;
- the critical-power / W' energy model with fatigue;
- the rider's first-match power policy;
- the race loop. Each step sorts the riders front to back, then updates each
  one in place with drafting, an overlap guard and a finish-line check. The run
  caps the number of steps, applies the timeout policy when nobody finished,
  and ranks the riders.

Floats are modelled as Dafny `real`. The model makes no claims about numerical
accuracy. In-place mutation is modelled as pure functions that return the
updated record.

Modules, one per source file (plus two helpers):

- `Common`: `Option`, the extended reals that stand for `float("inf")`,
  `min`/`max`, `int()` truncation, and small lemmas on real multiplication.
- `Sorting`: a stable insertion sort by a strict "goes before" relation. This
  is how `list.sort` behaves, including with `reverse=True`.
- `Routes` (`route.py`), `Physics` (`physics.py`), `Energy` (`physiology.py`),
  `Riders` (`rider.py`) and `Races` (`race.py`).

Two facts about the code are modelled exactly as written:

- **The gap uses the leader as already updated.** Riders are updated in the
  same list they were just sorted into. So the gap to the rider ahead
  (`cycling_sim/race.py:48-49`) and the overlap guard
  (`cycling_sim/race.py:79-81`) both read that rider after it has moved in this
  step. `Races.Sweep` threads the partially updated sequence through the pass,
  and `Races.SweepAdvances` states that each rider is advanced against
  `out[i - 1]`, the OUTPUT of the pass.
- **A finish time of 0.0 counts as unset.** `r.finish_time or ...` treats a
  finish time of exactly `0.0` like `None` in both the ranking key and the
  reported time (`cycling_sim/race.py:107`, `cycling_sim/race.py:109`). This is
  `Races.Truthy`, and `Races.ZeroFinishTimeReadsAsUnset` states the
  consequence.

## Model

| member | source | states |
|---|---|---|
| Common.Truncate | cycling_sim/race.py:94 | `int(x)` rounds toward zero. The result is the integer within 1 of `x` on the side of zero. |
| Sorting.SortBy | cycling_sim/race.py:42 | Sorting returns a permutation of its input with the same length. |
| Sorting.SortBySorted | cycling_sim/race.py:107 | With a strict order, the sorted sequence never has an element go before an earlier one. |
| Sorting.SortBySortedIsIdentity | cycling_sim/race.py:42 | Input that is already sorted, including input where every element ties, comes back unchanged. |
| Sorting.InsertKeepsTies | cycling_sim/race.py:42 | Inserting an element after its ties appends it to its tie class and leaves every other tie class as it was. |
| Sorting.SortByStable | cycling_sim/race.py:42 | The sort is stable: for a strict weak order, the elements tied with any `x` come out in the order they went in. With sortedness and permutation this fixes the output completely. |
| Routes.MakeRoute | cycling_sim/route.py:18-20 | `total_length` is where the last segment ends, and 0 for no segments. |
| Routes.ScanFrom | cycling_sim/route.py:25-30 | The loop picks the first segment, from `k` on, whose cumulative end is `>= p`. If there is none, it picks the last segment, and every end before it is `< p`. |
| Routes.SegmentIndex | cycling_sim/route.py:22-30 | For a non-empty route, the chosen segment is the first whose cumulative end is `>= p`, or the last one when `p` lies beyond every end. |
| Routes.GradientAt | cycling_sim/route.py:22-30 | The result is always the gradient of some segment of the route. |
| Routes.GradientWithinSegment | cycling_sim/route.py:25-29 | Lookup is a step function. Every `p` in `(end of k-1, end of k]` reads segment `k`. A position exactly on a boundary reads the earlier segment, and for `k = 0` negative positions are covered too. |
| Routes.GradientAtStart | cycling_sim/route.py:26-28 | Any position up to the first segment's length, negative ones included, reads the first segment. |
| Routes.GradientBeyondEnd | cycling_sim/route.py:30 | Positions past `total_length` read the last segment's gradient. |
| Physics.ComputeForces | cycling_sim/physics.py:24-65 | The total is aero + rolling + grade. Drag is non-negative for non-negative density, CdA and draft, and zero at rest. The grade force is zero on the flat, negative on a descent and positive on a climb. |
| Physics.SpeedOnlyAffectsDrag | cycling_sim/physics.py:49-57 | Rolling and grade forces do not depend on speed or draft factor. |
| Physics.DragIsQuadratic | cycling_sim/physics.py:48-49 | Drag is quadratic in speed: scaling the speed by `k` scales the drag by `k*k`. |
| Physics.DragAtTenMetresPerSecond | cycling_sim/physics.py:41-49 | Under the default constants, drag at 10 m/s with CdA 0.3 is 0.5*1.226*0.3*100 = 18.39 N in open air and 0.7 times that with draft factor 0.7. |
| Physics.DraftScalesDrag | cycling_sim/physics.py:41-49 | The draft factor multiplies CdA: drag with factor `d` is `d` times the drag in open air. |
| Physics.DragGrowsWithSpeed | cycling_sim/physics.py:48-49 | With non-negative air density, CdA and draft factor, drag does not decrease as the speed grows in magnitude. |
| Physics.DescentCanAssist | cycling_sim/physics.py:49-59 | From a standstill, with positive mass and gravity, the total is negative (net assistance) exactly when `gradient + crr < 0`, whatever the CdA and draft factor. |
| Physics.EffectiveSpeed | cycling_sim/physics.py:100 | The divisor is exactly `max(speed, 0.5)`: it is either the speed or 0.5, at least both, and the speed once that is 0.5 or more. |
| Physics.DriveForce | cycling_sim/physics.py:101 | Drive force times effective speed is the power that reaches the wheel. |
| Physics.EulerStep | cycling_sim/physics.py:103-108 | Acceleration times mass is the net force. The new speed is never negative, equals `speed + a*dt` when that is non-negative, and is 0 otherwise. |
| Physics.EulerStepMonotone | cycling_sim/physics.py:104-108 | With positive mass and non-negative `dt`, a larger net force never gives a lower next speed. |
| Physics.NextSpeed | cycling_sim/physics.py:68-110 | `compute_next_speed`: acceleration times mass is drive force minus total resistance. The next speed is non-negative and equals `speed + a*dt` whenever that is non-negative. |
| Physics.NextSpeedMonotoneInPower | cycling_sim/physics.py:96-110 | With positive mass, non-negative efficiency and non-negative `dt`, more power never gives a lower next speed. |
| Energy.NewPhysiology | cycling_sim/physiology.py:8-22 | A new physiology starts with a full W' (`w_balance == w_prime`) and no work done. It is in bounds, and not nearly depleted exactly when `w_prime >= 0`. |
| Energy.FatigueRatio | cycling_sim/physiology.py:27 | The ratio is at most 1. It is 0 with no work done, non-negative for non-negative work, and 1 once `fatigue_kj` of work is done. Below that, ratio times `fatigue_kj` is exactly the work done: the ratio is linear in work. |
| Energy.FatigueRatioMonotone | cycling_sim/physiology.py:27 | More work never lowers the ratio. |
| Energy.FatigueFactor | cycling_sim/physiology.py:28-29 | The factor is exactly `1 - penalty*ratio` while that is not negative, and never negative. It is 1 at ratio 0. For a penalty in `[0, 1]` it lies in `[1 - penalty, 1]`, and it equals `1 - penalty` at ratio 1. |
| Energy.FatigueFactorMonotone | cycling_sim/physiology.py:28-29 | A higher ratio never raises the factor. |
| Energy.AdjustedCp | cycling_sim/physiology.py:24-30 | Adjusted CP is non-negative for non-negative CP, and equals CP before any work. |
| Energy.AdjustedCpBounds | cycling_sim/physiology.py:27-29 | Adjusted CP lies in `[cp*(1-penalty), cp]` and hits the lower end once `fatigue_kj` of work is done. This holds for a penalty in `[0, 1]`, non-negative work, positive `fatigue_kj` and non-negative CP. |
| Energy.AdjustedCpNonIncreasing | cycling_sim/physiology.py:27-29 | For the same rider, more accumulated work never raises adjusted CP. |
| Energy.Drain | cycling_sim/physiology.py:41-42 | Above CP, W' never goes negative and never grows. It drops by exactly the excess work when that does not empty it, and is exactly 0 when it would. |
| Energy.Refill | cycling_sim/physiology.py:46-47 | Below CP, W' never exceeds `w_prime` and never drops. It rises by exactly a quarter of the deficit work when that fits, and is exactly `w_prime` when it would overshoot. |
| Energy.Update | cycling_sim/physiology.py:32-47 | The fixed traits are unchanged. `total_kj` grows by exactly `power*dt/1000`. Above the pre-update CP, W' is exactly `Drain` of the excess; at or below it, exactly `Refill` of the deficit. So W' stays in `[0, w_prime]` if it started there, never rises when riding above the pre-update CP and never falls when riding at or below it. |
| Energy.ThresholdUsesPreUpdateWork | cycling_sim/physiology.py:35-47 | Riding at or below the pre-update CP with a full W', for non-negative `dt`, leaves W' full. |
| Energy.PreUpdateThresholdExample | cycling_sim/physiology.py:35-39 | An instance: a 300 W CP rider riding 300 W for 1000 s keeps a full W', although that step's own work pushes CP below 300 W. |
| Energy.AvailablePower | cycling_sim/physiology.py:49-56 | The ceiling is `1.05*cp` when W' is below 20% of `w_prime`, `1.4*cp` otherwise, and for non-negative CP it lies in `[cp, 1.4*cp]`. |
| Energy.SpentRiderIsCooked | cycling_sim/physiology.py:58-61 | A rider with positive CP, a penalty above 0.2, at least `fatigue_kj` of work done and W' down to 1 J is cooked: the fully applied penalty takes CP below 80%. |
| Energy.IsCooked | cycling_sim/physiology.py:58-61 | A cooked rider has W' of at most 1 J. A rider with no work done and non-negative CP is never cooked. `Energy.MildPenaltyNeverCooked` rules it out for penalties up to 0.2, and `Energy.SpentRiderIsCooked` gives the converse. |
| Energy.MildPenaltyNeverCooked | cycling_sim/physiology.py:58-61 | With a fatigue penalty of at most 0.2 and positive CP, a rider is never cooked, whatever its W' balance or work done. |
| Riders.NewRider | cycling_sim/rider.py:11-22 | A new rider starts at position 0, at rest, unfinished and with no finish time. |
| Riders.ChoosePower | cycling_sim/rider.py:27-59 | A nearly depleted rider rides at `0.95*cp` in every context. For non-negative CP the power never exceeds `1.3*cp`, and with non-negative sprint power it is never negative. |
| Riders.ChaseOffTheBack | cycling_sim/rider.py:36-49 | Off the back with W' healthy: power is `min(sprint_power, 1.3*cp)`. The 1.4x ceiling never binds. |
| Riders.EaseInTheDraft | cycling_sim/rider.py:52-53 | Close behind a wheel with W' healthy: power is `0.9*cp`. |
| Riders.PushAtFront | cycling_sim/rider.py:56-57 | At the front with W' healthy: power is `min(sprint_power, 1.1*cp)`, whatever the gap. |
| Riders.HoldAtThreshold | cycling_sim/rider.py:48-59 | Not at the front, between 2 and 5 m behind, W' healthy: power is exactly adjusted CP. |
| Riders.MissingEntriesDefault | cycling_sim/rider.py:40-41 | A missing gap acts as gap 0, and a missing front flag acts as false. Only those two entries matter. |
| Races.DraftFactor | cycling_sim/race.py:13-20 | The factor is 0.7 exactly when the gap is under 2 m, and 1.0 exactly when the gap is 5 m or more, infinite included. Otherwise it is 0.85. |
| Races.DraftFactorMonotone | cycling_sim/race.py:13-20 | A larger gap never gives more shelter. |
| Races.ContextFor | cycling_sim/race.py:48-60 | The front rider is at the front, sees a gap of 0 and gets no draft. A follower sees the distance to the rider ahead and gets the draft factor of that distance. Time and gradient are passed through. |
| Races.Guard | cycling_sim/race.py:78-81 | Position and velocity only go down. With a leader, the position ends at most 0.3 m behind it. When the guard fires, velocity is the smaller of the rider's and the leader's. Otherwise nothing changes, and velocities stay non-negative. |
| Races.Place | cycling_sim/race.py:75-87 | Only position, velocity, physiology and finish status change. Clear of the leader and short of the line, the rider lands at `position + v*dt` at speed `v`. Its velocity is `v` whenever it stays clear of the leader, and the slower of `v` and the leader's speed whenever the guard fires, whether or not it also finishes. Closing on the leader, it is held 0.3 m behind. Reaching the line clear of the leader, it finishes on the line at the current time. |
| Races.CrossLine | cycling_sim/race.py:83-87 | Reaching `total_length` finishes the rider at the pre-increment time, exactly on the line. Otherwise the rider is unchanged, and only position and finish status may change. |
| Races.Advance | cycling_sim/race.py:44-87 | The rider is the same rider and finished riders are untouched. A processed follower ends at least 0.3 m behind its leader. A rider that finishes does so on the line at the current time; one that does not stays short of the line. Speed stays non-negative; with non-negative `dt`, W' stays in bounds, and with non-negative CP and sprint power, work never decreases. |
| Races.AdvanceMoves | cycling_sim/race.py:50-87 | An unfinished rider's physiology takes the power the policy chose for its context (gradient, gap, draft). It is placed by `Races.Place` at the speed of the Euler step under that power. |
| Races.Sweep | cycling_sim/race.py:44-87 | The pass keeps the length, keeps every rider well formed, and leaves the riders before `idx` untouched. |
| Races.SweepAdvances | cycling_sim/race.py:44-49 | Each rider is advanced against the rider ahead AS ALREADY UPDATED in the same pass. |
| Races.NewRace | cycling_sim/race.py:32-36 | A new race starts its clock at 0. |
| Races.FrontToBack | cycling_sim/race.py:42 | Sorting by position is a permutation of the riders. |
| Races.FrontToBackSorted | cycling_sim/race.py:42 | After the sort, positions are non-increasing from front to back. |
| Races.AheadIsStrictWeakOrder | cycling_sim/race.py:42 | Comparing positions is a strict weak order, riders level on the road being tied. |
| Races.FrontToBackStable | cycling_sim/race.py:42 | Riders level on the road come out of the sort in the order they went in. |
| Races.FrontToBackKeepsOrder | cycling_sim/race.py:42 | Riders already in front-to-back order, such as all level at the start, keep their list order. |
| Races.Step | cycling_sim/race.py:38-89 | A step keeps the number of riders, the course and `dt`, and advances the clock by exactly `dt`. |
| Races.StepOutcome | cycling_sim/race.py:42-87 | Read against the sorted order: the same riders in that order, and finished riders unchanged. Each rider is exactly `Races.Advance` of its sorted self against the already-updated rider ahead of it. Every processed follower is at least 0.3 m behind the rider ahead after the step. A rider finishing in the step does so at the step's start time, on the line. |
| Races.StepKeepsNames | cycling_sim/race.py:38-89 | A step never adds, drops or renames a rider. |
| Races.StepKeepsSound | cycling_sim/race.py:38-89 | With non-negative `dt`, every rider keeps W' within `[0, w_prime]` and a non-negative speed. |
| Races.StepNeverUndoesWork | cycling_sim/race.py:74 | With non-negative CP, sprint power and `dt`, no rider's accumulated work decreases in a step. |
| Races.Iterate | cycling_sim/race.py:95-98 | After any number of steps the race is still valid, on the same course with the same `dt`. |
| Races.IterateElapsed | cycling_sim/race.py:95-98 | After `n` steps the clock reads the start time plus `dt` added `n` times. |
| Races.ElapsedIsProduct | cycling_sim/race.py:95-98 | `dt` added `n` times is `n * dt`. |
| Races.IterateKeepsNames | cycling_sim/race.py:95-98 | Any number of steps keeps the same multiset of rider names. |
| Races.IterateKeepsSound | cycling_sim/race.py:95-98 | Any number of steps keeps every rider sound. |
| Races.StepCap | cycling_sim/race.py:94 | The step budget is `int(max_time/dt)`: within 1 below `max_time/dt`, and 0 when that is below 1. |
| Races.Simulate | cycling_sim/race.py:94-98 | The loop takes at most `cap` steps. No rider was finished before any step taken. If it stopped early, a rider has finished. The result is the race after that many steps. |
| Races.TimeOut | cycling_sim/race.py:101-104 | Every rider is marked finished at `max_time`, and nothing else about it changes. |
| Races.Settle | cycling_sim/race.py:100-104 | The timeout policy applies exactly when nobody has finished. Identities and positions are kept. |
| Races.Truthy | cycling_sim/race.py:107-109 | `t or ...` keeps a time exactly when it is set and not 0.0. |
| Races.ZeroFinishTimeReadsAsUnset | cycling_sim/race.py:107-109 | A rider finished at 0.0 is ranked like an unfinished rider and reported at `max_time`. |
| Races.RanksBeforeIsStrictWeakOrder | cycling_sim/race.py:107 | The key `(-position, finish_time or inf)` induces a strict weak order. Riders with equal keys are tied. |
| Races.Names | cycling_sim/race.py:108 | The order lists exactly one name per rider, each at that rider's place. |
| Races.FinishTimes | cycling_sim/race.py:109 | The keys are exactly the riders' names. Each name maps to the reported time of the LAST rider with that name, as a dict comprehension does. |
| Races.Rank | cycling_sim/race.py:106-110 | The ranking is a permutation: furthest first, ties broken by earlier finish, with unset or zero finish times last. Riders with equal keys keep their input order. `order` is the names in that order, a permutation of the input names. `finish_times` is keyed by exactly those names. |
| Races.Run | cycling_sim/race.py:91-110 | At most `int(max_time/dt)` steps, stopping as soon as a rider has finished. With no finisher, every rider is marked finished at `max_time`. The result ranks a permutation of the final riders, sorted by the key with equal keys in their final list order, and its order is a permutation of the starting names. |
| Races.RunKeepsSound | cycling_sim/race.py:91-110 | Riders sound at the start are sound in the final ranking. |

## Left out

- `cycling_sim/simulator.py` (Monte-Carlo driver, random trait sampling, win counting, default route), `cycling_sim/run_example.py` (seeding and printing) and `cycling_sim/__init__.py` (re-exports) are not part of this model. They are randomness, orchestration and I/O.
- Floating point: every quantity is a `real`, so rounding, Euler stability and time drift are not modelled.
- The `strategy` dict on `Rider` is never read by the engine, so the model has no such field.
- The context passed to `choose_power` is a record. Its `gap` and `at_front` entries are `Option`s, which models `dict.get` with a default.
- Every race step uses `DEFAULT_CONSTANTS`, as the source's call does. `Physics.NextSpeed` still takes the constants as a parameter.
- Division by zero becomes a precondition: `mass == 0` in `compute_next_speed`, `fatigue_kj == 0` in `fatigue_adjusted_cp`, and `dt == 0` in `run`. The source raises `ZeroDivisionError` there and has no handled error path.
- `gradient_at` on an empty route is a precondition, because the source raises `IndexError`.
- Routes.GradientWithinSegment: requires non-negative segment lengths. With a negative length the cumulative ends can go back down, so a position may also lie in an earlier segment's interval. `Routes.SegmentIndex` still characterises the result for every route.
- Races.StepNeverUndoesWork: compares each rider with the same index in the sorted order, not by name.
- Races.Step: its contract is limited to the race-level fields. What happens to the riders is stated by `Races.StepOutcome` (each rider is `Races.Advance` of its sorted self against the updated rider ahead), `Races.AdvanceMoves`, `Races.SweepAdvances`, `Races.StepKeepsNames`, `Races.StepKeepsSound` and `Races.StepNeverUndoesWork`.
- Each entry of `riders` is an independent value. In the source, the same `Rider` or `Physiology` object placed twice in the list would be updated twice per step; the model has no aliasing.
- The insertion order of the `finish_times` dict is not modelled; it is a map. The defaults `dt=0.2` and `max_time=7200.0` are not modelled either: both are parameters.
- Races.Valid: requires a non-empty route even when no rider is unfinished. The source never calls `gradient_at` in that case, so it would accept an empty route there.

=== FILE: common.dfy ===
/** Small value types shared by the race model: an option type, the
    extended reals used for the source's `float("inf")` sentinels, and the
    Python builtins `min`, `max` and `int` on reals. */
module Common {

  /** Conventional optional value, standing for Python's `None`. */
  datatype Option<+T> = None | Some(value: T) {

    /** The value, or `default` when there is none (`dict.get(key, default)`). */
    function GetOr(default: T): T {
      match this
      case Some(v) => v
      case None => default
    }
  }

  /** A real number or positive infinity. */
  datatype ExtReal = Finite(v: real) | PosInf {

    /** Strict order on the extended reals; `PosInf` is above every finite value. */
    predicate Below(that: ExtReal) {
      match this
      case PosInf => false
      case Finite(a) => that.PosInf? || a < that.v
    }
  }

  lemma BelowIsStrictOrder(a: ExtReal, b: ExtReal, c: ExtReal)
    ensures !a.Below(a)
    ensures a.Below(b) && b.Below(c) ==> a.Below(c)
    ensures a.Below(b) ==> !b.Below(a)
    ensures a == b || a.Below(b) || b.Below(a)
  {
  }

  /** Python's two-argument `min` on reals. */
  function Min(a: real, b: real): (m: real)
    ensures m <= a && m <= b
    ensures m == a || m == b
  {
    if b < a then b else a
  }

  /** Python's two-argument `max` on reals. */
  function Max(a: real, b: real): (m: real)
    ensures m >= a && m >= b
    ensures m == a || m == b
  {
    if b > a then b else a
  }

  /** Python's `int(x)` on a float: truncation toward zero. */
  function Truncate(x: real): (n: int)
    ensures x >= 0.0 ==> n as real <= x < n as real + 1.0
    ensures x < 0.0 ==> n as real - 1.0 < x <= n as real
  {
    if x >= 0.0 then x.Floor else -((-x).Floor)
  }

  lemma MulMonotone(a: real, b: real, d: real)
    requires a <= b && 0.0 <= d
    ensures a * d <= b * d && d * a <= d * b
  {
  }

  /** `c * f` grows with `f` for a fixed non-negative `c`. */
  lemma ScaledLe(a1: real, a2: real, c1: real, c2: real, f1: real, f2: real)
    requires a1 == c1 * f1 && a2 == c2 * f2
    requires c1 == c2 && 0.0 <= c1 && f1 <= f2
    ensures a1 <= a2
  {
    MulMonotone(f1, f2, c1);
  }

  /** `c * a` is strictly below `c * b` for a positive `c`. */
  lemma MulStrict(a: real, b: real, c: real)
    requires a < b && 0.0 < c
    ensures a * c < b * c && c * a < c * b
  {
  }

  lemma MulAtMost(a: real, d: real)
    requires a <= 1.0 && 0.0 <= d
    ensures d * a <= d
  {
    MulMonotone(a, 1.0, d);
  }

  lemma MulNonNegative(a: real, b: real)
    requires 0.0 <= a && 0.0 <= b
    ensures 0.0 <= a * b && 0.0 <= b * a
  {
  }

  lemma MulCancel(a: real, b: real, m: real)
    requires 0.0 < m && a * m <= b * m
    ensures a <= b
  {
  }

  lemma DivMonotone(a: real, b: real, d: real)
    requires a <= b && 0.0 < d
    ensures a / d <= b / d
  {
    MulMonotone(a, b, 1.0 / d);
  }
}

=== FILE: energy.dfy ===
/** The rider's energy state (cycling_sim/physiology.py): critical power
    degraded by accumulated work, and the anaerobic reserve W' drained above
    critical power and refilled below it. */
module Energy {
  import opened Common

  /** `fatigueKj`, `fatiguePenalty` and `sprintPower` are fixed tunables;
      `wBalance` and `totalKj` evolve with `Update`. */
  datatype Physiology = Physiology(
    criticalPower: real,   // W
    wPrime: real,          // J
    fatigueKj: real,       // kJ at which the full penalty applies
    fatiguePenalty: real,  // fractional CP drop at fatigueKj
    sprintPower: real,     // W
    wBalance: real,        // J of W' left
    totalKj: real)         // kJ of work done so far

  const DefaultFatigueKj := 800.0
  const DefaultFatiguePenalty := 0.15
  const DefaultSprintPower := 1100.0

  /** Below this fraction of W' a rider counts as nearly depleted. */
  const DepletedFraction := 0.2

  /** The source divides by `fatigueKj`; zero is a ZeroDivisionError. */
  predicate Defined(p: Physiology) {
    p.fatigueKj != 0.0
  }

  /** W' balance inside `[0, wPrime]`. */
  predicate InBounds(p: Physiology) {
    0.0 <= p.wBalance <= p.wPrime
  }

  /** Same fixed traits; only `wBalance` and `totalKj` may differ. */
  predicate SameTraits(p: Physiology, q: Physiology) {
    && p.criticalPower == q.criticalPower && p.wPrime == q.wPrime
    && p.fatigueKj == q.fatigueKj && p.fatiguePenalty == q.fatiguePenalty
    && p.sprintPower == q.sprintPower
  }

  predicate NearlyDepleted(p: Physiology) {
    p.wBalance < DepletedFraction * p.wPrime
  }

  /** `Physiology(...)` followed by `__post_init__`. */
  function NewPhysiology(criticalPower: real, wPrime: real, fatigueKj: real,
                         fatiguePenalty: real, sprintPower: real): (p: Physiology)
    ensures p.criticalPower == criticalPower && p.wPrime == wPrime && p.fatigueKj == fatigueKj
    ensures p.fatiguePenalty == fatiguePenalty && p.sprintPower == sprintPower
    ensures p.wBalance == p.wPrime && p.totalKj == 0.0
    ensures wPrime >= 0.0 ==> InBounds(p)
    ensures !NearlyDepleted(p) <==> wPrime >= 0.0
  {
    Physiology(criticalPower, wPrime, fatigueKj, fatiguePenalty, sprintPower, wPrime, 0.0)
  }

  /** `min(total_kj / fatigue_kj, 1)`: how far along the fatigue scale the rider is. */
  function FatigueRatio(totalKj: real, fatigueKj: real): (r: real)
    requires fatigueKj != 0.0
    ensures r <= 1.0
    ensures 0.0 <= totalKj && 0.0 < fatigueKj ==> 0.0 <= r
    ensures totalKj == 0.0 ==> r == 0.0
    ensures totalKj >= fatigueKj > 0.0 ==> r == 1.0
    ensures 0.0 < fatigueKj && totalKj <= fatigueKj ==> r * fatigueKj == totalKj
  {
    RatioFacts(totalKj, fatigueKj);
    Min(totalKj / fatigueKj, 1.0)
  }

  lemma RatioFacts(totalKj: real, fatigueKj: real)
    requires fatigueKj != 0.0
    ensures 0.0 <= totalKj && 0.0 < fatigueKj ==> 0.0 <= Min(totalKj / fatigueKj, 1.0)
    ensures totalKj == 0.0 ==> Min(totalKj / fatigueKj, 1.0) == 0.0
    ensures totalKj >= fatigueKj > 0.0 ==> Min(totalKj / fatigueKj, 1.0) == 1.0
    ensures 0.0 < fatigueKj && totalKj <= fatigueKj ==> Min(totalKj / fatigueKj, 1.0) * fatigueKj == totalKj
  {
    var q := totalKj / fatigueKj;
    assert q * fatigueKj == totalKj;
    if 0.0 < fatigueKj {
      if 0.0 <= totalKj {
        DivMonotone(0.0, totalKj, fatigueKj);
      }
      if totalKj >= fatigueKj {
        DivMonotone(fatigueKj, totalKj, fatigueKj);
        assert fatigueKj / fatigueKj == 1.0;
      } else {
        DivMonotone(totalKj, fatigueKj, fatigueKj);
        assert fatigueKj / fatigueKj == 1.0;
      }
    }
  }

  lemma FatigueRatioMonotone(t1: real, t2: real, fatigueKj: real)
    requires t1 <= t2 && fatigueKj > 0.0
    ensures FatigueRatio(t1, fatigueKj) <= FatigueRatio(t2, fatigueKj)
  {
    DivMonotone(t1, t2, fatigueKj);
  }

  /** The fraction of critical power left after fatigue:
      `max(0, 1 - fatigue_penalty * ratio)`. */
  function FatigueFactor(penalty: real, ratio: real): (f: real)
    ensures 0.0 <= f
    ensures ratio == 0.0 ==> f == 1.0
    ensures 0.0 <= penalty && ratio <= 1.0 ==> 1.0 - penalty <= f
    ensures 0.0 <= penalty && 0.0 <= ratio ==> f <= 1.0
    ensures ratio == 1.0 && penalty <= 1.0 ==> f == 1.0 - penalty
    ensures penalty * ratio <= 1.0 ==> f == 1.0 - penalty * ratio
  {
    FactorFacts(penalty, ratio);
    Max(0.0, 1.0 - penalty * ratio)
  }

  lemma FactorFacts(penalty: real, ratio: real)
    ensures ratio == 0.0 ==> Max(0.0, 1.0 - penalty * ratio) == 1.0
    ensures 0.0 <= penalty && ratio <= 1.0 ==> 1.0 - penalty <= Max(0.0, 1.0 - penalty * ratio)
    ensures 0.0 <= penalty && 0.0 <= ratio ==> Max(0.0, 1.0 - penalty * ratio) <= 1.0
    ensures ratio == 1.0 && penalty <= 1.0 ==> Max(0.0, 1.0 - penalty * ratio) == 1.0 - penalty
  {
    var x := penalty * ratio;
    if ratio == 0.0 {
      assert x == 0.0;
    }
    if ratio == 1.0 {
      assert x == penalty;
    }
    if 0.0 <= penalty && ratio <= 1.0 {
      MulAtMost(ratio, penalty);
      assert x <= penalty;
    }
    if 0.0 <= penalty && 0.0 <= ratio {
      MulNonNegative(ratio, penalty);
      assert 0.0 <= x;
    }
  }

  /** The factor does not grow as the ratio does. */
  lemma FatigueFactorMonotone(penalty: real, r1: real, r2: real)
    requires 0.0 <= penalty && r1 <= r2
    ensures FatigueFactor(penalty, r2) <= FatigueFactor(penalty, r1)
  {
    MulMonotone(r1, r2, penalty);
    assert penalty * r1 <= penalty * r2;
    OneMinusMonotone(penalty * r1, penalty * r2);
  }

  lemma OneMinusMonotone(x1: real, x2: real)
    requires x1 <= x2
    ensures Max(0.0, 1.0 - x2) <= Max(0.0, 1.0 - x1)
  {
  }

  /** `fatigue_adjusted_cp`: critical power scaled by the fatigue factor. */
  function AdjustedCp(p: Physiology): (cp: real)
    requires Defined(p)
    ensures p.criticalPower >= 0.0 ==> 0.0 <= cp
    ensures p.totalKj == 0.0 ==> cp == p.criticalPower
  {
    var f := FatigueFactor(p.fatiguePenalty, FatigueRatio(p.totalKj, p.fatigueKj));
    assert p.criticalPower >= 0.0 ==> 0.0 <= p.criticalPower * f by {
      if p.criticalPower >= 0.0 {
        MulNonNegative(f, p.criticalPower);
      }
    }
    p.criticalPower * f
  }

  /** With a penalty in `[0, 1]`, adjusted CP stays within `[cp * (1 - penalty), cp]`,
      and sits at the bottom of that range once `fatigueKj` of work is done. */
  lemma AdjustedCpBounds(p: Physiology)
    requires Defined(p) && p.criticalPower >= 0.0 && 0.0 <= p.fatiguePenalty <= 1.0
    requires p.totalKj >= 0.0 && p.fatigueKj > 0.0
    ensures p.criticalPower * (1.0 - p.fatiguePenalty) <= AdjustedCp(p) <= p.criticalPower
    ensures p.totalKj >= p.fatigueKj ==> AdjustedCp(p) == p.criticalPower * (1.0 - p.fatiguePenalty)
  {
    var f := FatigueFactor(p.fatiguePenalty, FatigueRatio(p.totalKj, p.fatigueKj));
    MulMonotone(1.0 - p.fatiguePenalty, f, p.criticalPower);
    MulMonotone(f, 1.0, p.criticalPower);
  }

  /** More accumulated work never raises the adjusted critical power. */
  lemma AdjustedCpNonIncreasing(p: Physiology, q: Physiology)
    requires SameTraits(p, q) && p.fatigueKj > 0.0
    requires p.fatiguePenalty >= 0.0 && p.criticalPower >= 0.0
    requires p.totalKj <= q.totalKj
    ensures AdjustedCp(q) <= AdjustedCp(p)
  {
    var rp := FatigueRatio(p.totalKj, p.fatigueKj);
    var rq := FatigueRatio(q.totalKj, q.fatigueKj);
    FatigueRatioMonotone(p.totalKj, q.totalKj, p.fatigueKj);
    FatigueFactorMonotone(p.fatiguePenalty, rp, rq);
    ScaledLe(AdjustedCp(q), AdjustedCp(p), q.criticalPower, p.criticalPower,
             FatigueFactor(q.fatiguePenalty, rq), FatigueFactor(p.fatiguePenalty, rp));
  }

  /** `update(power, dt)`. The threshold is the critical power adjusted for
      the work done BEFORE this step; this step's work only counts from the
      next step on. */
  function Update(p: Physiology, power: real, dt: real): (q: Physiology)
    requires Defined(p)
    ensures SameTraits(p, q)
    ensures q.totalKj - p.totalKj == power * dt / 1000.0
    ensures power >= 0.0 && dt >= 0.0 ==> q.totalKj >= p.totalKj
    ensures dt >= 0.0 && InBounds(p) ==> InBounds(q)
    ensures dt >= 0.0 && power > AdjustedCp(p) && 0.0 <= p.wBalance ==> q.wBalance <= p.wBalance
    ensures dt >= 0.0 && power <= AdjustedCp(p) && p.wBalance <= p.wPrime ==> q.wBalance >= p.wBalance
    ensures power > AdjustedCp(p) ==> q.wBalance >= 0.0
    ensures power <= AdjustedCp(p) ==> q.wBalance <= p.wPrime
    ensures power > AdjustedCp(p) ==> q.wBalance == Drain(p.wBalance, power - AdjustedCp(p), dt)
    ensures power <= AdjustedCp(p) ==> q.wBalance == Refill(p.wBalance, p.wPrime, AdjustedCp(p) - power, dt)
  {
    var cp := AdjustedCp(p);
    var total := p.totalKj + power * dt / 1000.0;
    if power > cp then
      p.(totalKj := total, wBalance := Drain(p.wBalance, power - cp, dt))
    else
      p.(totalKj := total, wBalance := Refill(p.wBalance, p.wPrime, cp - power, dt))
  }

  /** W' after riding `excess` watts above critical power for `dt` seconds:
      `max(0, w_bal - excess * dt)`. */
  function Drain(w: real, excess: real, dt: real): (r: real)
    ensures 0.0 <= r
    ensures 0.0 <= excess && 0.0 <= dt && 0.0 <= w ==> r <= w
    ensures w - excess * dt >= 0.0 ==> r == w - excess * dt
    ensures w - excess * dt < 0.0 ==> r == 0.0
  {
    MulNonNegativeWhen(excess, dt);
    Max(0.0, w - excess * dt)
  }

  /** W' after riding `deficit` watts below critical power for `dt` seconds:
      a quarter of the deficit comes back, up to `wPrime`. */
  function Refill(w: real, wPrime: real, deficit: real, dt: real): (r: real)
    ensures r <= wPrime
    ensures 0.0 <= deficit && 0.0 <= dt && w <= wPrime ==> w <= r
    ensures w + deficit * dt * 0.25 <= wPrime ==> r == w + deficit * dt * 0.25
    ensures w + deficit * dt * 0.25 > wPrime ==> r == wPrime
  {
    MulNonNegativeWhen(deficit, dt);
    Min(wPrime, w + deficit * dt * 0.25)
  }

  lemma MulNonNegativeWhen(a: real, b: real)
    ensures 0.0 <= a && 0.0 <= b ==> 0.0 <= a * b
  {
    if 0.0 <= a && 0.0 <= b {
      MulNonNegative(a, b);
    }
  }

  /** At or below the pre-update critical power, a rider with a full W'
      keeps it full, whatever the step's own work does to critical power. */
  lemma ThresholdUsesPreUpdateWork(p: Physiology, power: real, dt: real)
    requires Defined(p) && power <= AdjustedCp(p) && p.wBalance == p.wPrime && dt >= 0.0
    ensures Update(p, power, dt).wBalance == p.wPrime
  {
    var deficit := AdjustedCp(p) - power;
    MulNonNegativeWhen(deficit, dt);
  }

  /** An instance: a 300 W rider riding at CP for 1000 s does enough work to
      push CP below 300 W, yet that step counts as sub-threshold and W' does
      not move. */
  lemma PreUpdateThresholdExample()
    ensures var p := NewPhysiology(300.0, 20000.0, DefaultFatigueKj, DefaultFatiguePenalty, DefaultSprintPower);
            var q := Update(p, 300.0, 1000.0);
            && q.wBalance == p.wBalance
            && 300.0 > AdjustedCp(q)
  {
  }

  /** `available_power`: a ceiling of 1.05 x adjusted CP when W' is nearly
      depleted, 1.4 x adjusted CP otherwise. */
  function AvailablePower(p: Physiology): (w: real)
    requires Defined(p)
    ensures NearlyDepleted(p) ==> w == 1.05 * AdjustedCp(p)
    ensures !NearlyDepleted(p) ==> w == 1.4 * AdjustedCp(p)
    ensures p.criticalPower >= 0.0 ==> AdjustedCp(p) <= w <= 1.4 * AdjustedCp(p)
  {
    var cp := AdjustedCp(p);
    if p.wBalance < DepletedFraction * p.wPrime then cp * 1.05 else cp * 1.4
  }

  /** `is_cooked`: W' (almost) exhausted and critical power down by more than 20%.
      A rider with no work done is never cooked, nor one with W' above 1 J. */
  predicate IsCooked(p: Physiology): (cooked: bool)
    requires Defined(p)
    ensures cooked ==> p.wBalance <= 1.0
    ensures p.totalKj == 0.0 && p.criticalPower >= 0.0 ==> !cooked
  {
    p.wBalance <= 1.0 && AdjustedCp(p) < 0.8 * p.criticalPower
  }

  /** With a fatigue penalty of at most 20% a rider is never cooked, whatever
      their W' balance or accumulated work. */
  lemma MildPenaltyNeverCooked(p: Physiology)
    requires Defined(p)
    requires 0.0 <= p.fatiguePenalty <= 0.2 && p.criticalPower > 0.0
    ensures !IsCooked(p)
  {
    var r := FatigueRatio(p.totalKj, p.fatigueKj);
    var f := FatigueFactor(p.fatiguePenalty, r);
    assert f >= 0.8;
    ScaledLe(p.criticalPower * 0.8, AdjustedCp(p), p.criticalPower, p.criticalPower, 0.8, f);
  }

  /** The converse direction: a rider whose penalty exceeds 20%, who has done
      at least `fatigueKj` of work and whose W' is down to 1 J is cooked. */
  lemma SpentRiderIsCooked(p: Physiology)
    requires Defined(p) && p.fatigueKj > 0.0 && p.totalKj >= p.fatigueKj
    requires 0.2 < p.fatiguePenalty <= 1.0 && p.criticalPower > 0.0
    requires p.wBalance <= 1.0
    ensures IsCooked(p)
  {
    AdjustedCpBounds(p);
    MulStrict(1.0 - p.fatiguePenalty, 0.8, p.criticalPower);
  }
}

=== FILE: physics.dfy ===
/** Resistive forces and one explicit Euler step of the rider's speed
    (cycling_sim/physics.py), over the reals. */
module Physics {
  import opened Common

  datatype Constants = Constants(airDensity: real, gravity: real, drivetrainEfficiency: real)

  /** `DEFAULT_CONSTANTS`: sea-level air, standard gravity, 97.5% drivetrain. */
  const DefaultConstants := Constants(1.226, 9.80665, 0.975)

  /** Speed below which the drive force is computed as if rolling at this speed. */
  const MinRollingSpeed := 0.5

  datatype Forces = Forces(aero: real, rolling: real, grade: real, total: real)

  /** `compute_forces`: drag, rolling resistance and the slope component,
      all in newtons; a negative total is net assistance (a descent). */
  function ComputeForces(speed: real, gradient: real, mass: real, cda: real, crr: real,
                         draftFactor: real, c: Constants): (f: Forces)
    ensures f.total == f.aero + f.rolling + f.grade
    ensures c.airDensity >= 0.0 && cda >= 0.0 && draftFactor >= 0.0 ==> f.aero >= 0.0
    ensures speed == 0.0 ==> f.aero == 0.0
    ensures gradient == 0.0 ==> f.grade == 0.0
    ensures mass > 0.0 && c.gravity > 0.0 && gradient < 0.0 ==> f.grade < 0.0
    ensures mass > 0.0 && c.gravity > 0.0 && gradient > 0.0 ==> f.grade > 0.0
  {
    var aero := 0.5 * c.airDensity * cda * draftFactor * (speed * speed);
    var rolling := mass * c.gravity * crr;
    var grade := mass * c.gravity * gradient;
    Forces(aero, rolling, grade, aero + rolling + grade)
  }

  /** Rolling resistance and the slope force do not depend on speed or draft. */
  lemma SpeedOnlyAffectsDrag(s1: real, s2: real, gradient: real, mass: real, cda: real, crr: real,
                             d1: real, d2: real, c: Constants)
    ensures ComputeForces(s1, gradient, mass, cda, crr, d1, c).rolling
         == ComputeForces(s2, gradient, mass, cda, crr, d2, c).rolling
    ensures ComputeForces(s1, gradient, mass, cda, crr, d1, c).grade
         == ComputeForces(s2, gradient, mass, cda, crr, d2, c).grade
  {
  }

  /** The draft factor multiplies the drag: riding with factor `d` meets `d`
      times the drag of riding in the wind. */
  lemma DraftScalesDrag(speed: real, gradient: real, mass: real, cda: real, crr: real,
                        d: real, c: Constants)
    ensures ComputeForces(speed, gradient, mass, cda, crr, d, c).aero
         == d * ComputeForces(speed, gradient, mass, cda, crr, 1.0, c).aero
  {
  }

  /** Drag is quadratic in speed: `k` times the speed meets `k * k` times
      the drag. */
  lemma DragIsQuadratic(k: real, speed: real, gradient: real, mass: real, cda: real, crr: real,
                        d: real, c: Constants)
    ensures ComputeForces(k * speed, gradient, mass, cda, crr, d, c).aero
         == k * k * ComputeForces(speed, gradient, mass, cda, crr, d, c).aero
  {
    assert (k * speed) * (k * speed) == k * k * (speed * speed);
  }

  /** The drag's size under the default constants: 18.39 N at 10 m/s with a
      CdA of 0.3 in open air, and 70% of that in a draft of factor 0.7. */
  lemma DragAtTenMetresPerSecond(gradient: real, mass: real, crr: real)
    ensures ComputeForces(10.0, gradient, mass, 0.3, crr, 1.0, DefaultConstants).aero == 18.39
    ensures ComputeForces(10.0, gradient, mass, 0.3, crr, 0.7, DefaultConstants).aero == 0.7 * 18.39
  {
  }

  /** With non-negative air density, CdA and draft factor, drag does not
      decrease as the speed grows in magnitude. */
  lemma DragGrowsWithSpeed(s1: real, s2: real, gradient: real, mass: real, cda: real, crr: real,
                           d: real, c: Constants)
    requires c.airDensity >= 0.0 && cda >= 0.0 && d >= 0.0
    requires s1 * s1 <= s2 * s2
    ensures ComputeForces(s1, gradient, mass, cda, crr, d, c).aero
         <= ComputeForces(s2, gradient, mass, cda, crr, d, c).aero
  {
    var k := 0.5 * c.airDensity * cda * d;
    assert 0.0 <= k by {
      MulNonNegative(0.5 * c.airDensity, cda);
      MulNonNegative(0.5 * c.airDensity * cda, d);
    }
    MulMonotone(s1 * s1, s2 * s2, k);
  }

  /** From a standstill the total is net assistance exactly when the descent
      is steeper than the rolling coefficient, whatever the bike's drag. */
  lemma DescentCanAssist(gradient: real, mass: real, cda: real, crr: real, draftFactor: real, c: Constants)
    requires mass > 0.0 && c.gravity > 0.0
    ensures ComputeForces(0.0, gradient, mass, cda, crr, draftFactor, c).total < 0.0 <==> gradient + crr < 0.0
  {
    var weight := mass * c.gravity;
    assert weight > 0.0;
    assert ComputeForces(0.0, gradient, mass, cda, crr, draftFactor, c).total == weight * (gradient + crr);
    SignOfScaled(weight, gradient + crr);
  }

  lemma SignOfScaled(k: real, x: real)
    requires k > 0.0
    ensures k * x < 0.0 <==> x < 0.0
  {
    if x < 0.0 {
      assert k * x == -(k * -x);
    } else {
      MulNonNegative(k, x);
    }
  }

  /** `max(speed, 0.5)`: the divisor of the drive force, never below 0.5. */
  function EffectiveSpeed(speed: real): (s: real)
    ensures s >= MinRollingSpeed && s >= speed
    ensures speed >= MinRollingSpeed ==> s == speed
    ensures s == speed || s == MinRollingSpeed
  {
    Max(speed, MinRollingSpeed)
  }

  /** Propulsive force from pedal power: power reaching the wheel divided by speed. */
  function DriveForce(power: real, speed: real, c: Constants): (d: real)
    ensures d * EffectiveSpeed(speed) == power * c.drivetrainEfficiency
  {
    power * c.drivetrainEfficiency / EffectiveSpeed(speed)
  }

  /** One explicit Euler step under net force `net`: the acceleration and
      the new speed, clamped at zero (no rolling backwards). */
  function EulerStep(speed: real, net: real, mass: real, dt: real): (r: (real, real))
    requires mass != 0.0
    ensures r.0 * mass == net
    ensures r.1 >= 0.0
    ensures speed + r.0 * dt >= 0.0 ==> r.1 == speed + r.0 * dt
    ensures speed + r.0 * dt < 0.0 ==> r.1 == 0.0
  {
    var acceleration := net / mass;
    (acceleration, Max(0.0, speed + acceleration * dt))
  }

  /** A larger net force never gives a lower speed after the step. */
  lemma EulerStepMonotone(speed: real, n1: real, n2: real, mass: real, dt: real)
    requires n1 <= n2 && mass > 0.0 && dt >= 0.0
    ensures EulerStep(speed, n1, mass, dt).1 <= EulerStep(speed, n2, mass, dt).1
  {
    var a1 := EulerStep(speed, n1, mass, dt).0;
    var a2 := EulerStep(speed, n2, mass, dt).0;
    MulCancel(a1, a2, mass);
    MulMonotone(a1, a2, dt);
  }

  /** `compute_next_speed`: returns `(acceleration, next_speed)`. A zero mass
      is a ZeroDivisionError in the source, hence the precondition. */
  function NextSpeed(power: real, speed: real, gradient: real, mass: real, cda: real, crr: real,
                     draftFactor: real, dt: real, c: Constants): (r: (real, real))
    requires mass != 0.0
    ensures r.0 * mass == DriveForce(power, speed, c) - ComputeForces(speed, gradient, mass, cda, crr, draftFactor, c).total
    ensures r.1 >= 0.0
    ensures speed + r.0 * dt >= 0.0 ==> r.1 == speed + r.0 * dt
    ensures speed + r.0 * dt < 0.0 ==> r.1 == 0.0
  {
    var resistive := ComputeForces(speed, gradient, mass, cda, crr, draftFactor, c);
    EulerStep(speed, DriveForce(power, speed, c) - resistive.total, mass, dt)
  }

  lemma DriveForceMonotone(p1: real, p2: real, speed: real, c: Constants)
    requires p1 <= p2 && c.drivetrainEfficiency >= 0.0
    ensures DriveForce(p1, speed, c) <= DriveForce(p2, speed, c)
  {
    var e := EffectiveSpeed(speed);
    assert p1 * c.drivetrainEfficiency <= p2 * c.drivetrainEfficiency;
    assert DriveForce(p2, speed, c) - DriveForce(p1, speed, c)
        == (p2 * c.drivetrainEfficiency - p1 * c.drivetrainEfficiency) / e;
  }

  /** With a positive mass, a non-negative efficiency and a non-negative
      timestep, more power never gives a lower next speed. */
  lemma NextSpeedMonotoneInPower(p1: real, p2: real, speed: real, gradient: real, mass: real,
                                 cda: real, crr: real, draftFactor: real, dt: real, c: Constants)
    requires p1 <= p2
    requires mass > 0.0 && dt >= 0.0 && c.drivetrainEfficiency >= 0.0
    ensures NextSpeed(p1, speed, gradient, mass, cda, crr, draftFactor, dt, c).1
         <= NextSpeed(p2, speed, gradient, mass, cda, crr, draftFactor, dt, c).1
  {
    DriveForceMonotone(p1, p2, speed, c);
    var resistive := ComputeForces(speed, gradient, mass, cda, crr, draftFactor, c).total;
    EulerStepMonotone(speed, DriveForce(p1, speed, c) - resistive, DriveForce(p2, speed, c) - resistive, mass, dt);
  }
}

=== FILE: races.dfy ===
/** The race engine (cycling_sim/race.py): one timestep sorts the riders
    front to back and advances each unfinished rider in that order, against
    the rider just ahead as it stands after its own update this step; `Run`
    repeats steps until someone finishes or the time cap is hit, then ranks
    the riders. */
module Races {
  import opened Common
  import opened Sorting
  import opened Routes
  import opened Physics
  import opened Energy
  import opened Riders

  /** Closest a follower may sit behind the rider ahead, in metres. */
  const MinGap := 0.3

  // ---------------------------------------------------------------------
  // Drafting

  /** `compute_draft_factor`: the multiplier on drag area for a rider `gap`
      metres behind the next wheel; an unbounded gap (no rider ahead) gets
      no shelter. */
  function DraftFactor(gap: ExtReal): (f: real)
    ensures f == 0.7 || f == 0.85 || f == 1.0
    ensures f == 0.7 <==> gap.Below(Finite(DraftGap))
    ensures f == 1.0 <==> !gap.Below(Finite(ChaseGap))
  {
    if gap.Below(Finite(DraftGap)) then 0.7
    else if gap.Below(Finite(ChaseGap)) then 0.85
    else 1.0
  }

  /** A larger gap never gives more shelter. */
  lemma DraftFactorMonotone(a: ExtReal, b: ExtReal)
    requires !b.Below(a)
    ensures DraftFactor(a) <= DraftFactor(b)
  {
  }

  // ---------------------------------------------------------------------
  // One rider's update within a step

  /** The rider immediately ahead in `rs`, if any. */
  function Leader(rs: seq<Rider>, i: nat): Option<Rider>
    requires i < |rs|
  {
    if i == 0 then None else Some(rs[i - 1])
  }

  /** Gap to the rider ahead; infinite at the front. */
  function GapTo(rider: Rider, leader: Option<Rider>): ExtReal {
    match leader
    case None => PosInf
    case Some(l) => Finite(l.position - rider.position)
  }

  /** The policy's view of the race: at the front the gap is reported as 0. */
  function ContextFor(rider: Rider, leader: Option<Rider>, gradient: real, time: real): (ctx: PowerContext)
    ensures ctx.atFront == Some(leader.None?)
    ensures leader.None? ==> ctx.gap == Some(0.0) && ctx.draftFactor == 1.0
    ensures leader.Some? ==> ctx.gap == Some(leader.value.position - rider.position)
    ensures leader.Some? ==> ctx.draftFactor == DraftFactor(Finite(leader.value.position - rider.position))
    ensures ctx.time == time && ctx.gradient == gradient
  {
    var gap := GapTo(rider, leader);
    PowerContext(time, Some(if gap.PosInf? then 0.0 else gap.v), Some(leader.None?), DraftFactor(gap), gradient)
  }

  /** The overlap guard: a rider that ends up closer than `MinGap` behind
      the rider ahead is put back to exactly `MinGap` behind it and may go no
      faster than it. Returns the new position and velocity. */
  function Guard(position: real, velocity: real, leader: Option<Rider>): (pv: (real, real))
    ensures pv.0 <= position && pv.1 <= velocity
    ensures leader.Some? ==> pv.0 <= leader.value.position - MinGap
    ensures leader.Some? && position > leader.value.position - MinGap
            ==> pv.0 == leader.value.position - MinGap && pv.1 <= leader.value.velocity
    ensures leader.Some? && position > leader.value.position - MinGap
            ==> pv.1 == velocity || pv.1 == leader.value.velocity
    ensures leader.None? || position <= leader.value.position - MinGap ==> pv == (position, velocity)
    ensures velocity >= 0.0 && (leader.Some? ==> leader.value.velocity >= 0.0) ==> pv.1 >= 0.0
  {
    match leader
    case Some(l) =>
      if position > l.position - MinGap then (l.position - MinGap, Min(velocity, l.velocity))
      else (position, velocity)
    case None => (position, velocity)
  }

  /** The finish-line check: reaching the total length finishes the rider
      at the current (pre-increment) time, placed exactly on the line. */
  function CrossLine(rider: Rider, totalLength: real, time: real): (r: Rider)
    ensures r.position <= rider.position
    ensures r == rider.(position := r.position, finished := r.finished, finishTime := r.finishTime)
    ensures rider.position >= totalLength ==> r.finished && r.finishTime == Some(time) && r.position == totalLength
    ensures rider.position < totalLength ==> r == rider
  {
    if rider.position >= totalLength then
      rider.(finished := true, finishTime := Some(time), position := totalLength)
    else rider
  }

  /** The second half of the loop body: move by `v * dt`, apply the overlap
      guard, check the finish, with the physiology already updated. Clear of
      the leader and short of the line the rider lands where it moved at
      speed `v`; closing on the leader it is held `MinGap` behind at the
      slower of the two speeds. */
  function Place(rider: Rider, physiology: Physiology, v: real, leader: Option<Rider>,
                 totalLength: real, dt: real, time: real): (r: Rider)
    ensures r == rider.(physiology := physiology, position := r.position, velocity := r.velocity,
                        finished := r.finished, finishTime := r.finishTime)
    ensures leader.Some? ==> r.position <= leader.value.position - MinGap
    ensures r.finished && !rider.finished ==> r.finishTime == Some(time) && r.position == totalLength
    ensures !r.finished ==> r.position < totalLength && r.finishTime == rider.finishTime
    ensures v >= 0.0 && (leader.Some? ==> leader.value.velocity >= 0.0) ==> r.velocity >= 0.0
    ensures (leader.None? || rider.position + v * dt <= leader.value.position - MinGap)
            && rider.position + v * dt < totalLength
            ==> r.velocity == v && r.position == rider.position + v * dt && r.finished == rider.finished
    ensures leader.None? || rider.position + v * dt <= leader.value.position - MinGap ==> r.velocity == v
    ensures leader.Some? && rider.position + v * dt > leader.value.position - MinGap
            ==> r.velocity == Min(v, leader.value.velocity)
    ensures leader.Some? && rider.position + v * dt > leader.value.position - MinGap
            && leader.value.position - MinGap < totalLength
            ==> r.velocity == Min(v, leader.value.velocity) && r.position == leader.value.position - MinGap
    ensures (leader.None? || rider.position + v * dt <= leader.value.position - MinGap)
            && rider.position + v * dt >= totalLength
            ==> r.finished && r.position == totalLength && r.finishTime == Some(time)
  {
    var guarded := Guard(rider.position + v * dt, v, leader);
    CrossLine(rider.(physiology := physiology, position := guarded.0, velocity := guarded.1), totalLength, time)
  }

  /** The body of the loop in `Race.step` for one rider: choose power, take
      the Euler step, update physiology, then `Place`. Finished riders are
      left as they are. */
  function Advance(rider: Rider, leader: Option<Rider>, route: Route, dt: real, time: real): (r: Rider)
    requires |route.segments| > 0 && WellFormed(rider)
    ensures SameRider(rider, r) && WellFormed(r)
    ensures rider.finished ==> r == rider
    ensures rider.finished <==> r == rider && r.finished
    ensures !rider.finished && leader.Some? ==> r.position <= leader.value.position - MinGap
    ensures !rider.finished && r.finished ==> r.finishTime == Some(time) && r.position == route.totalLength
    ensures !r.finished ==> r.position < route.totalLength && r.finishTime == rider.finishTime
    ensures !rider.finished && (leader.Some? ==> leader.value.velocity >= 0.0) ==> r.velocity >= 0.0
    ensures dt >= 0.0 && InBounds(rider.physiology) ==> InBounds(r.physiology)
    ensures dt >= 0.0 && rider.physiology.criticalPower >= 0.0 && rider.physiology.sprintPower >= 0.0
            ==> r.physiology.totalKj >= rider.physiology.totalKj
  {
    if rider.finished then rider
    else
      var gradient := GradientAt(route, rider.position);
      var ctx := ContextFor(rider, leader, gradient, time);
      var power := ChoosePower(rider, ctx);
      var speeds := NextSpeed(power, rider.velocity, gradient, rider.mass, rider.cda, rider.crr,
                              ctx.draftFactor, dt, DefaultConstants);
      Place(rider, Update(rider.physiology, power, dt), speeds.1, leader, route.totalLength, dt, time)
  }

  /** An unfinished rider is moved by the physics: its physiology takes the
      power the policy chose for its context, and it is placed by `Place`
      at the speed of the Euler step under that power. */
  lemma AdvanceMoves(rider: Rider, leader: Option<Rider>, route: Route, dt: real, time: real)
    requires |route.segments| > 0 && WellFormed(rider) && !rider.finished
    ensures var ctx := ContextFor(rider, leader, GradientAt(route, rider.position), time);
            var power := ChoosePower(rider, ctx);
            var v := NextSpeed(power, rider.velocity, ctx.gradient, rider.mass, rider.cda, rider.crr,
                               ctx.draftFactor, dt, DefaultConstants).1;
            Advance(rider, leader, route, dt, time)
            == Place(rider, Update(rider.physiology, power, dt), v, leader, route.totalLength, dt, time)
  {
  }

  // ---------------------------------------------------------------------
  // One step

  ghost predicate AllWellFormed(rs: seq<Rider>) {
    forall i :: 0 <= i < |rs| ==> WellFormed(rs[i])
  }

  /** The in-place pass over the sorted riders, from index `idx` on. Each
      rider is advanced against the rider ahead AS ALREADY ADVANCED in this
      pass (`out[i - 1]`), which is what mutating the list in place does. */
  function Sweep(rs: seq<Rider>, idx: nat, route: Route, dt: real, time: real): (out: seq<Rider>)
    requires idx <= |rs| && |route.segments| > 0 && AllWellFormed(rs)
    ensures |out| == |rs| && AllWellFormed(out)
    ensures forall i :: 0 <= i < idx ==> out[i] == rs[i]
    decreases |rs| - idx, 1
  {
    if idx == |rs| then rs else SweepAt(rs, idx, route, dt, time)
  }

  /** Advance rider `idx` against the rider ahead, then sweep on. */
  function SweepAt(rs: seq<Rider>, idx: nat, route: Route, dt: real, time: real): (out: seq<Rider>)
    requires idx < |rs| && |route.segments| > 0 && AllWellFormed(rs)
    ensures |out| == |rs| && AllWellFormed(out)
    ensures forall i :: 0 <= i < idx ==> out[i] == rs[i]
    decreases |rs| - idx, 0
  {
    Sweep(rs[idx := Advance(rs[idx], Leader(rs, idx), route, dt, time)], idx + 1, route, dt, time)
  }

  /** Every rider from `idx` on is advanced against its leader in the
      OUTPUT: the rider ahead after its own update. */
  lemma {:induction false} SweepAdvances(rs: seq<Rider>, idx: nat, route: Route, dt: real, time: real)
    requires idx <= |rs| && |route.segments| > 0 && AllWellFormed(rs)
    ensures var out := Sweep(rs, idx, route, dt, time);
            forall i :: idx <= i < |rs| ==> out[i] == Advance(rs[i], Leader(out, i), route, dt, time)
    decreases |rs| - idx
  {
    if idx < |rs| {
      var rs' := rs[idx := Advance(rs[idx], Leader(rs, idx), route, dt, time)];
      var out := Sweep(rs, idx, route, dt, time);
      assert out == SweepAt(rs, idx, route, dt, time) == Sweep(rs', idx + 1, route, dt, time);
      SweepAdvances(rs', idx + 1, route, dt, time);
      assert out[idx] == rs'[idx];
      assert Leader(out, idx) == Leader(rs, idx) by {
        if idx > 0 {
          assert out[idx - 1] == rs'[idx - 1] == rs[idx - 1];
        }
      }
    }
  }

  /** A race in progress: the riders in their current order, the course,
      the timestep and the clock. */
  datatype Race = Race(riders: seq<Rider>, route: Route, dt: real, time: real)

  /** `Race(riders, route, dt)`: the clock starts at zero. */
  function NewRace(riders: seq<Rider>, route: Route, dt: real): (race: Race)
    ensures race.riders == riders && race.route == route && race.dt == dt && race.time == 0.0
  {
    Race(riders, route, dt, 0.0)
  }

  /** What the engine needs: a non-empty course and riders whose divisions
      are defined. */
  ghost predicate Valid(race: Race) {
    |race.route.segments| > 0 && AllWellFormed(race.riders)
  }

  /** The rider's position is strictly ahead. */
  predicate Ahead(a: Rider, b: Rider) {
    a.position > b.position
  }

  /** The riders front to back; riders level on the road keep their order. */
  function FrontToBack(rs: seq<Rider>): (sorted: seq<Rider>)
    ensures multiset(sorted) == multiset(rs)
  {
    SortBy(rs, Ahead)
  }

  /** The sorted riders run from the furthest along the road to the least. */
  lemma FrontToBackSorted(rs: seq<Rider>)
    ensures SortedBy(Ahead, FrontToBack(rs))
    ensures forall i, j :: 0 <= i < j < |rs| ==> FrontToBack(rs)[i].position >= FrontToBack(rs)[j].position
  {
    AheadIsStrictWeakOrder();
    SortBySorted(rs, Ahead);
  }

  /** Being ahead on the road is a strict weak order: riders level with each
      other are interchangeable. */
  lemma AheadIsStrictWeakOrder()
    ensures StrictWeakOrder(Ahead)
  {
  }

  /** The sort is stable: riders level on the road come out in the order
      they went in. */
  lemma FrontToBackStable(rs: seq<Rider>, x: Rider)
    ensures TiesWith(FrontToBack(rs), x, Ahead) == TiesWith(rs, x, Ahead)
  {
    AheadIsStrictWeakOrder();
    SortByStable(rs, x, Ahead);
  }

  /** Riders that are already in front-to-back order are not reordered; in
      particular riders all level at the start keep their list order. */
  lemma FrontToBackKeepsOrder(rs: seq<Rider>)
    requires forall i, j :: 0 <= i < j < |rs| ==> rs[i].position >= rs[j].position
    ensures FrontToBack(rs) == rs
  {
    SortBySortedIsIdentity(rs, Ahead);
  }

  /** `Race.step`. */
  function Step(race: Race): (next: Race)
    requires Valid(race)
    ensures Valid(next)
    ensures next.route == race.route && next.dt == race.dt && next.time == race.time + race.dt
    ensures |next.riders| == |race.riders|
  {
    var sorted := FrontToBack(race.riders);
    PermutationMembers(race.riders, sorted);
    Race(Sweep(sorted, 0, race.route, race.dt, race.time), race.route, race.dt, race.time + race.dt)
  }

  /** What one step does to the riders, read against the front-to-back order
      it starts from: the same riders in that order; riders already finished
      untouched; every other rider at least `MinGap` behind the rider ahead of
      it after the step; a rider that finished in this step does so at the
      step's start time, on the line. */
  lemma StepOutcome(race: Race)
    requires Valid(race)
    ensures var sorted := FrontToBack(race.riders);
            var next := Step(race).riders;
            && (forall i :: 0 <= i < |next| ==> SameRider(sorted[i], next[i]))
            && (forall i :: 0 <= i < |next| && sorted[i].finished ==> next[i] == sorted[i])
            && (forall i :: 0 < i < |next| && !sorted[i].finished
                  ==> next[i - 1].position - next[i].position >= MinGap)
            && (forall i :: 0 <= i < |next| && !sorted[i].finished && next[i].finished
                  ==> next[i].finishTime == Some(race.time) && next[i].position == race.route.totalLength)
            && (forall i :: 0 <= i < |next|
                  ==> next[i] == Advance(sorted[i], Leader(next, i), race.route, race.dt, race.time))
  {
    var sorted := FrontToBack(race.riders);
    PermutationMembers(race.riders, sorted);
    var next := Sweep(sorted, 0, race.route, race.dt, race.time);
    SweepAdvances(sorted, 0, race.route, race.dt, race.time);
    assert Step(race).riders == next;
    forall i | 0 <= i < |next|
      ensures SameRider(sorted[i], next[i])
      ensures sorted[i].finished ==> next[i] == sorted[i]
      ensures 0 < i && !sorted[i].finished ==> next[i - 1].position - next[i].position >= MinGap
      ensures !sorted[i].finished && next[i].finished
              ==> next[i].finishTime == Some(race.time) && next[i].position == race.route.totalLength
      ensures next[i] == Advance(sorted[i], Leader(next, i), race.route, race.dt, race.time)
    {
      assert next[i] == Advance(sorted[i], Leader(next, i), race.route, race.dt, race.time);
    }
  }

  // ---------------------------------------------------------------------
  // Invariants a step keeps

  function Names(rs: seq<Rider>): (ns: seq<string>)
    ensures |ns| == |rs|
    ensures forall i :: 0 <= i < |rs| ==> ns[i] == rs[i].name
  {
    seq(|rs|, i requires 0 <= i < |rs| => rs[i].name)
  }

  lemma NamesConcat(a: seq<Rider>, b: seq<Rider>)
    ensures Names(a + b) == Names(a) + Names(b)
  {
  }

  /** Reordering the riders reorders their names. */
  lemma {:induction false} PermutedNames(s: seq<Rider>, t: seq<Rider>)
    requires multiset(s) == multiset(t)
    ensures multiset(Names(s)) == multiset(Names(t))
  {
    if s == [] {
      assert |t| == |multiset(t)| == 0;
    } else {
      var x := s[0];
      assert x in multiset(t);
      var k :| 0 <= k < |t| && t[k] == x;
      var rest := t[..k] + t[k + 1..];
      assert s == [x] + s[1..];
      RemoveAt(t, k);
      assert multiset(s[1..]) == multiset(rest);
      calc {
        multiset(Names(s));
        == { NamesTail(s); }
        multiset(Names(s[1..])) + multiset{x.name};
        == { PermutedNames(s[1..], rest); }
        multiset(Names(rest)) + multiset{x.name};
        == { NamesRemoveAt(t, k); }
        multiset(Names(t));
      }
    }
  }

  lemma NamesTail(s: seq<Rider>)
    requires |s| > 0
    ensures multiset(Names(s)) == multiset(Names(s[1..])) + multiset{s[0].name}
  {
    assert Names(s) == [s[0].name] + Names(s[1..]);
  }

  lemma RemoveAt<T>(t: seq<T>, k: nat)
    requires k < |t|
    ensures multiset(t[..k] + t[k + 1..]) == multiset(t) - multiset{t[k]}
  {
    assert t == t[..k] + [t[k]] + t[k + 1..];
  }

  lemma NamesRemoveAt(t: seq<Rider>, k: nat)
    requires k < |t|
    ensures multiset(Names(t)) == multiset(Names(t[..k] + t[k + 1..])) + multiset{t[k].name}
  {
    NamesConcat(t[..k], [t[k]]);
    NamesConcat(t[..k] + [t[k]], t[k + 1..]);
    NamesConcat(t[..k], t[k + 1..]);
    assert t == t[..k] + [t[k]] + t[k + 1..];
  }

  lemma SameRidersSameNames(a: seq<Rider>, b: seq<Rider>)
    requires |a| == |b| && forall i :: 0 <= i < |a| ==> SameRider(a[i], b[i])
    ensures Names(a) == Names(b)
  {
  }

  /** A step reorders and updates the riders but never adds, drops or
      renames one. */
  lemma StepKeepsNames(race: Race)
    requires Valid(race)
    ensures multiset(Names(Step(race).riders)) == multiset(Names(race.riders))
  {
    var sorted := FrontToBack(race.riders);
    PermutedNames(race.riders, sorted);
    StepOutcome(race);
    SameRidersSameNames(sorted, Step(race).riders);
  }

  /** W' inside its bounds and a non-negative speed. */
  predicate Sound(r: Rider) {
    InBounds(r.physiology) && r.velocity >= 0.0
  }

  ghost predicate AllSound(rs: seq<Rider>) {
    forall i :: 0 <= i < |rs| ==> Sound(rs[i])
  }

  lemma {:induction false} SweepKeepsSound(rs: seq<Rider>, out: seq<Rider>, route: Route, dt: real, time: real, n: nat)
    requires |route.segments| > 0 && AllWellFormed(rs) && AllSound(rs) && dt >= 0.0
    requires |out| == |rs| && n <= |rs|
    requires forall i :: 0 <= i < |rs| ==> out[i] == Advance(rs[i], Leader(out, i), route, dt, time)
    ensures forall i :: 0 <= i < n ==> Sound(out[i])
  {
    if n > 0 {
      SweepKeepsSound(rs, out, route, dt, time, n - 1);
      var i := n - 1;
      assert out[i] == Advance(rs[i], Leader(out, i), route, dt, time);
    }
  }

  /** After a step, with a non-negative timestep, every rider still has W'
      within `[0, wPrime]` and a non-negative speed. */
  lemma StepKeepsSound(race: Race)
    requires Valid(race) && race.dt >= 0.0 && AllSound(race.riders)
    ensures AllSound(Step(race).riders)
  {
    var sorted := FrontToBack(race.riders);
    PermutationMembers(race.riders, sorted);
    var out := Sweep(sorted, 0, race.route, race.dt, race.time);
    SweepAdvances(sorted, 0, race.route, race.dt, race.time);
    SweepKeepsSound(sorted, out, race.route, race.dt, race.time, |sorted|);
  }

  /** With non-negative powers (non-negative critical and sprint power) and
      timestep, no rider's accumulated work goes down in a step. */
  lemma StepNeverUndoesWork(race: Race)
    requires Valid(race) && race.dt >= 0.0
    requires forall i :: 0 <= i < |race.riders| ==>
               race.riders[i].physiology.criticalPower >= 0.0 && race.riders[i].physiology.sprintPower >= 0.0
    ensures forall i :: 0 <= i < |race.riders| ==>
              Step(race).riders[i].physiology.totalKj >= FrontToBack(race.riders)[i].physiology.totalKj
  {
    var sorted := FrontToBack(race.riders);
    PermutationMembers(race.riders, sorted);
    SweepAdvances(sorted, 0, race.route, race.dt, race.time);
  }

  // ---------------------------------------------------------------------
  // The run

  /** The race after `n` steps. */
  function Iterate(race: Race, n: nat): (r: Race)
    requires Valid(race)
    ensures Valid(r) && r.route == race.route && r.dt == race.dt
  {
    if n == 0 then race else Step(Iterate(race, n - 1))
  }

  /** `dt` added `n` times, which is `n * dt` (`ElapsedIsProduct`). */
  function Elapsed(n: nat, dt: real): real {
    if n == 0 then 0.0 else Elapsed(n - 1, dt) + dt
  }

  /** The clock after `n` steps reads `dt` added `n` times past the start. */
  lemma {:induction false} IterateElapsed(race: Race, n: nat)
    requires Valid(race)
    ensures Iterate(race, n).time == race.time + Elapsed(n, race.dt)
  {
    if n > 0 {
      IterateElapsed(race, n - 1);
    }
  }

  lemma {:induction false} ElapsedIsProduct(n: nat, dt: real)
    ensures Elapsed(n, dt) == n as real * dt
  {
    if n > 0 {
      ElapsedIsProduct(n - 1, dt);
      assert (n - 1) as real * dt + dt == n as real * dt;
    }
  }

  /** However many steps are taken, the field keeps the same riders. */
  lemma {:induction false} IterateKeepsNames(race: Race, n: nat)
    requires Valid(race)
    ensures multiset(Names(Iterate(race, n).riders)) == multiset(Names(race.riders))
  {
    if n > 0 {
      var prev := Iterate(race, n - 1);
      IterateKeepsNames(race, n - 1);
      StepKeepsNames(prev);
      assert Iterate(race, n) == Step(prev);
    }
  }

  /** Every rider stays sound for any number of steps. */
  lemma {:induction false} IterateKeepsSound(race: Race, n: nat)
    requires Valid(race) && race.dt >= 0.0 && AllSound(race.riders)
    ensures AllSound(Iterate(race, n).riders)
  {
    if n > 0 {
      var prev := Iterate(race, n - 1);
      IterateKeepsSound(race, n - 1);
      StepKeepsSound(prev);
      assert Iterate(race, n) == Step(prev);
    }
  }

  predicate AnyFinished(rs: seq<Rider>) {
    exists i :: 0 <= i < |rs| && rs[i].finished
  }

  /** `int(max_time / dt)`, and no steps at all when that is negative. A zero
      timestep is a ZeroDivisionError in the source. */
  function StepCap(maxTime: real, dt: real): (n: nat)
    requires dt != 0.0
    ensures maxTime / dt >= 0.0 ==> n as real <= maxTime / dt < n as real + 1.0
    ensures maxTime / dt < 1.0 ==> n == 0
  {
    var k := Truncate(maxTime / dt);
    if k < 0 then 0 else k
  }

  /** The timeout policy: every rider is marked finished at `maxTime`. */
  function TimeOut(rs: seq<Rider>, maxTime: real): (out: seq<Rider>)
    ensures |out| == |rs|
    ensures forall i :: 0 <= i < |rs| ==> out[i].finished && out[i].finishTime == Some(maxTime)
    ensures forall i :: 0 <= i < |rs| ==> out[i] == rs[i].(finished := out[i].finished, finishTime := out[i].finishTime)
  {
    seq(|rs|, i requires 0 <= i < |rs| => rs[i].(finished := true, finishTime := Some(maxTime)))
  }

  /** Python's `t or ...` on a finish time: a time of exactly 0.0 is falsy
      and reads like `None`. */
  function Truthy(t: Option<real>): (u: Option<real>)
    ensures u.Some? <==> t.Some? && t.value != 0.0
    ensures u.Some? ==> u == t
  {
    if t == Some(0.0) then None else t
  }

  /** `r.finish_time or float("inf")`, the tie-break key of the ranking. */
  function RankTime(r: Rider): ExtReal {
    match Truthy(r.finishTime)
    case Some(t) => Finite(t)
    case None => PosInf
  }

  /** `r.finish_time or max_time`, the time reported for the rider. */
  function ReportedTime(r: Rider, maxTime: real): real {
    Truthy(r.finishTime).GetOr(maxTime)
  }

  /** A rider finished at time 0.0 is reported at `maxTime` and ranked as if
      it had no finish time, like a rider that never finished. */
  lemma ZeroFinishTimeReadsAsUnset(r: Rider, maxTime: real)
    requires r.finishTime == Some(0.0)
    ensures ReportedTime(r, maxTime) == ReportedTime(r.(finishTime := None), maxTime) == maxTime
    ensures RankTime(r) == RankTime(r.(finishTime := None)) == PosInf
  {
  }

  /** The ranking key `(-position, finish time)`: further along first, then
      the earlier finish. */
  predicate RanksBefore(a: Rider, b: Rider) {
    a.position > b.position || (a.position == b.position && RankTime(a).Below(RankTime(b)))
  }

  /** The ranking key induces a strict weak order: riders at the same
      position with the same key are interchangeable. */
  lemma RanksBeforeIsStrictWeakOrder()
    ensures StrictWeakOrder(RanksBefore)
  {
    forall a: Rider, b: Rider, c: Rider
      ensures RanksBefore(a, b) && RanksBefore(b, c) ==> RanksBefore(a, c)
    {
      BelowIsStrictOrder(RankTime(a), RankTime(b), RankTime(c));
    }
    forall a: Rider, b: Rider, c: Rider
      ensures RanksBefore(a, b) ==> RanksBefore(a, c) || RanksBefore(c, b)
    {
      BelowIsStrictOrder(RankTime(a), RankTime(c), RankTime(b));
      BelowIsStrictOrder(RankTime(a), RankTime(b), RankTime(c));
    }
    forall a: Rider
      ensures !RanksBefore(a, a)
    {
      BelowIsStrictOrder(RankTime(a), RankTime(a), RankTime(a));
    }
  }

  /** `m` holds exactly the riders' names, each mapped to the reported time
      of the last rider in `rs` with that name. */
  ghost predicate RecordsTimes(rs: seq<Rider>, m: map<string, real>, maxTime: real) {
    KeyedByName(rs, m) && LastTimes(rs, m, maxTime)
  }

  /** The keys of `m` are exactly the riders' names. */
  ghost predicate KeyedByName(rs: seq<Rider>, m: map<string, real>) {
    && (forall i :: 0 <= i < |rs| ==> rs[i].name in m)
    && (forall n :: n in m ==> n in Names(rs))
  }

  /** The last rider with a given name determines that name's entry. */
  ghost predicate LastTimes(rs: seq<Rider>, m: map<string, real>, maxTime: real) {
    forall i {:trigger LastOfName(rs, i)} :: 0 <= i < |rs| && LastOfName(rs, i)
      ==> rs[i].name in m && m[rs[i].name] == ReportedTime(rs[i], maxTime)
  }

  /** No rider after position `i` shares its name. */
  ghost predicate LastOfName(rs: seq<Rider>, i: nat)
    requires i < |rs|
  {
    forall j :: i < j < |rs| ==> rs[j].name != rs[i].name
  }

  lemma KeyOneMore(rs: seq<Rider>, m: map<string, real>, v: real)
    requires |rs| > 0 && KeyedByName(rs[..|rs| - 1], m)
    ensures KeyedByName(rs, m[rs[|rs| - 1].name := v])
  {
    var init := rs[..|rs| - 1];
    var m' := m[rs[|rs| - 1].name := v];
    forall i | 0 <= i < |rs|
      ensures rs[i].name in m'
    {
      if i < |init| {
        assert rs[i] == init[i];
      }
    }
    NamesConcat(init, [rs[|rs| - 1]]);
    assert init + [rs[|rs| - 1]] == rs;
  }

  lemma TimeOneMore(rs: seq<Rider>, m: map<string, real>, maxTime: real)
    requires |rs| > 0 && LastTimes(rs[..|rs| - 1], m, maxTime)
    ensures LastTimes(rs, m[rs[|rs| - 1].name := ReportedTime(rs[|rs| - 1], maxTime)], maxTime)
  {
    var init := rs[..|rs| - 1];
    var m' := m[rs[|rs| - 1].name := ReportedTime(rs[|rs| - 1], maxTime)];
    forall i | 0 <= i < |rs| && LastOfName(rs, i)
      ensures rs[i].name in m' && m'[rs[i].name] == ReportedTime(rs[i], maxTime)
    {
      if i < |init| {
        assert rs[i] == init[i];
        assert rs[|init|].name != rs[i].name;
        forall j | i < j < |init|
          ensures init[j].name != init[i].name
        {
          assert rs[j] == init[j];
        }
        assert LastOfName(init, i);
      }
    }
  }

  /** `{r.name: r.finish_time or max_time for r in riders}`: when two riders
      share a name the later one wins, as in a dict comprehension. */
  function FinishTimes(rs: seq<Rider>, maxTime: real): (m: map<string, real>)
    ensures RecordsTimes(rs, m, maxTime)
  {
    if rs == [] then map[]
    else
      var m := FinishTimes(rs[..|rs| - 1], maxTime);
      KeyOneMore(rs, m, ReportedTime(rs[|rs| - 1], maxTime));
      TimeOneMore(rs, m, maxTime);
      m[rs[|rs| - 1].name := ReportedTime(rs[|rs| - 1], maxTime)]
  }

  datatype RaceResult = RaceResult(order: seq<string>, finishTimes: map<string, real>)

  /** The timeout policy applies only when nobody has finished. */
  function Settle(rs: seq<Rider>, maxTime: real): (out: seq<Rider>)
    ensures |out| == |rs|
    ensures forall i :: 0 <= i < |rs| ==> SameRider(rs[i], out[i]) && out[i].position == rs[i].position
    ensures AnyFinished(rs) ==> out == rs
    ensures !AnyFinished(rs) ==> forall i :: 0 <= i < |rs| ==> out[i].finished && out[i].finishTime == Some(maxTime)
  {
    if AnyFinished(rs) then rs else TimeOut(rs, maxTime)
  }

  /** The final ordering and result of `run`: riders sorted by position,
      furthest first, ties broken by earlier finish time with unset (or
      zero) times last; names in that order; times by name. */
  method Rank(rs: seq<Rider>, maxTime: real) returns (result: RaceResult, ranked: seq<Rider>)
    ensures multiset(ranked) == multiset(rs)
    ensures SortedBy(RanksBefore, ranked)
    ensures forall i, j :: 0 <= i < j < |ranked| ==> ranked[i].position >= ranked[j].position
    ensures forall i, j :: 0 <= i < j < |ranked| && ranked[i].position == ranked[j].position
              ==> !RankTime(ranked[j]).Below(RankTime(ranked[i]))
    ensures result.order == Names(ranked)
    ensures multiset(result.order) == multiset(Names(rs))
    ensures RecordsTimes(ranked, result.finishTimes, maxTime)
    ensures forall n :: n in result.finishTimes ==> n in result.order
    ensures SameTies(ranked, rs, RanksBefore)
  {
    RanksBeforeIsStrictWeakOrder();
    SortBySorted(rs, RanksBefore);
    forall x
      ensures TiesWith(SortBy(rs, RanksBefore), x, RanksBefore) == TiesWith(rs, x, RanksBefore)
    {
      SortByStable(rs, x, RanksBefore);
    }
    ranked := SortBy(rs, RanksBefore);
    PermutedNames(rs, ranked);
    var times := FinishTimes(ranked, maxTime);
    result := RaceResult(Names(ranked), times);
  }

  /** One more step of the loop: the race after `n + 1` steps, and still no
      finish before any step taken so far. */
  lemma StepOnce(race: Race, n: nat, current: Race)
    requires Valid(race) && current == Iterate(race, n)
    requires forall k :: 0 <= k < n ==> !AnyFinished(Iterate(race, k).riders)
    requires !AnyFinished(current.riders)
    ensures Step(current) == Iterate(race, n + 1)
    ensures forall k :: 0 <= k < n + 1 ==> !AnyFinished(Iterate(race, k).riders)
  {
  }

  /** The stepping loop of `Race.run`: at most `cap` steps, stopping before
      the first step that would follow a finish. */
  method Simulate(race: Race, cap: nat) returns (final: Race, steps: nat)
    requires Valid(race)
    ensures final == Iterate(race, steps)
    ensures steps <= cap
    ensures forall k :: 0 <= k < steps ==> !AnyFinished(Iterate(race, k).riders)
    ensures steps < cap ==> AnyFinished(final.riders)
  {
    final := race;
    steps := 0;
    while steps < cap && !AnyFinished(final.riders)
      invariant steps <= cap
      invariant final == Iterate(race, steps)
      invariant forall k :: 0 <= k < steps ==> !AnyFinished(Iterate(race, k).riders)
    {
      StepOnce(race, steps, final);
      final := Step(final);
      steps := steps + 1;
    }
  }

  /** `Race.run(max_time)`: the stepping loop capped at `int(max_time / dt)`
      steps, then, if nobody finished, the
      timeout policy, then the ranking. Also returns the riders in ranked
      order and the number of steps taken. */
  method Run(race: Race, maxTime: real) returns (result: RaceResult, ranked: seq<Rider>, steps: nat)
    requires Valid(race) && race.dt != 0.0
    ensures steps <= StepCap(maxTime, race.dt)
    ensures forall k :: 0 <= k < steps ==> !AnyFinished(Iterate(race, k).riders)
    ensures steps < StepCap(maxTime, race.dt) ==> AnyFinished(Iterate(race, steps).riders)
    ensures multiset(ranked) == multiset(Settle(Iterate(race, steps).riders, maxTime))
    ensures !AnyFinished(Iterate(race, steps).riders)
            ==> forall i :: 0 <= i < |ranked| ==> ranked[i].finished && ranked[i].finishTime == Some(maxTime)
    ensures SortedBy(RanksBefore, ranked)
    ensures result.order == Names(ranked)
    ensures multiset(result.order) == multiset(Names(race.riders))
    ensures RecordsTimes(ranked, result.finishTimes, maxTime)
    ensures SameTies(ranked, Settle(Iterate(race, steps).riders, maxTime), RanksBefore)
  {
    var final;
    final, steps := Simulate(race, StepCap(maxTime, race.dt));
    var settled := Settle(final.riders, maxTime);
    SameRidersSameNames(final.riders, settled);
    IterateKeepsNames(race, steps);
    result, ranked := Rank(settled, maxTime);
    PermutationMembers(settled, ranked);
  }

  /** Riders that were sound at the start are sound in the final ranking. */
  lemma RunKeepsSound(race: Race, steps: nat, maxTime: real, ranked: seq<Rider>)
    requires Valid(race) && race.dt > 0.0 && AllSound(race.riders)
    requires multiset(ranked) == multiset(Settle(Iterate(race, steps).riders, maxTime))
    ensures AllSound(ranked)
  {
    IterateKeepsSound(race, steps);
    var settled := Settle(Iterate(race, steps).riders, maxTime);
    PermutationMembers(settled, ranked);
  }
}

=== FILE: riders.dfy ===
/** A rider and the power policy it follows (cycling_sim/rider.py). */
module Riders {
  import opened Common
  import opened Energy

  /** Fixed traits (`name`, `mass`, `cda`, `crr`), the owned physiology and
      the race state that the race engine updates each step. */
  datatype Rider = Rider(
    name: string,
    mass: real,            // kg, rider and bike
    cda: real,             // m^2
    crr: real,
    physiology: Physiology,
    position: real,        // m along the course
    velocity: real,        // m/s
    finished: bool,
    finishTime: Option<real>)

  /** `Rider(name, mass, cda, crr, physiology)` with the default race state. */
  function NewRider(name: string, mass: real, cda: real, crr: real, physiology: Physiology): (r: Rider)
    ensures r.name == name && r.mass == mass && r.cda == cda && r.crr == crr && r.physiology == physiology
    ensures r.position == 0.0 && r.velocity == 0.0 && !r.finished && r.finishTime.None?
  {
    Rider(name, mass, cda, crr, physiology, 0.0, 0.0, false, None)
  }

  /** The divisions the race performs for this rider are defined. */
  predicate WellFormed(r: Rider) {
    r.mass != 0.0 && Defined(r.physiology)
  }

  /** The same rider, in possibly another race state: identity, traits and
      the physiology's fixed traits agree. */
  predicate SameRider(a: Rider, b: Rider) {
    && a.name == b.name && a.mass == b.mass && a.cda == b.cda && a.crr == b.crr
    && SameTraits(a.physiology, b.physiology)
  }

  /** The state dictionary handed to `choose_power`. The policy reads only
      `gap` and `at_front`, each with a default when the key is absent. */
  datatype PowerContext = PowerContext(
    time: real,
    gap: Option<real>,
    atFront: Option<bool>,
    draftFactor: real,
    gradient: real)

  const ChaseGap := 5.0
  const DraftGap := 2.0

  /** `choose_power`: the first matching rule of
      (1) nearly depleted W': 95% of adjusted CP;
      (2) more than 5 m off the wheel ahead: chase at up to 130%;
      (3) closer than 2 m behind a wheel: 90%;
      (4) at the front: up to 110%;
      (5) otherwise exactly adjusted CP.
      The chase and front efforts are also capped by available power and
      sprint power. A missing gap reads as 0, a missing `at_front` as false. */
  function ChoosePower(rider: Rider, ctx: PowerContext): (power: real)
    requires Defined(rider.physiology)
    ensures NearlyDepleted(rider.physiology) ==> power == 0.95 * AdjustedCp(rider.physiology)
    ensures rider.physiology.criticalPower >= 0.0 ==> power <= 1.3 * AdjustedCp(rider.physiology)
    ensures rider.physiology.criticalPower >= 0.0 && rider.physiology.sprintPower >= 0.0 ==> power >= 0.0
  {
    var phys := rider.physiology;
    var cp := AdjustedCp(phys);
    var maxPower := Min(AvailablePower(phys), phys.sprintPower);
    var gap := ctx.gap.GetOr(0.0);
    var atFront := ctx.atFront.GetOr(false);
    if phys.wBalance < DepletedFraction * phys.wPrime then cp * 0.95
    else if gap > ChaseGap && !atFront then Min(maxPower, cp * 1.3)
    else if !atFront && gap < DraftGap then cp * 0.9
    else if atFront then Min(maxPower, cp * 1.1)
    else cp
  }

  /** Off the back with W' healthy: chase at the lower of sprint power and
      130% of adjusted CP (available power, 140%, never binds). */
  lemma ChaseOffTheBack(rider: Rider, ctx: PowerContext)
    requires Defined(rider.physiology) && rider.physiology.criticalPower >= 0.0
    requires !NearlyDepleted(rider.physiology)
    requires ctx.gap.GetOr(0.0) > ChaseGap && !ctx.atFront.GetOr(false)
    ensures ChoosePower(rider, ctx) == Min(rider.physiology.sprintPower, 1.3 * AdjustedCp(rider.physiology))
  {
  }

  /** Tucked in close behind a wheel with W' healthy: 90% of adjusted CP. */
  lemma EaseInTheDraft(rider: Rider, ctx: PowerContext)
    requires Defined(rider.physiology)
    requires !NearlyDepleted(rider.physiology)
    requires ctx.gap.GetOr(0.0) < DraftGap && !ctx.atFront.GetOr(false)
    ensures ChoosePower(rider, ctx) == 0.9 * AdjustedCp(rider.physiology)
  {
  }

  /** At the front with W' healthy: the lower of sprint power and 110% of
      adjusted CP, whatever the gap says. */
  lemma PushAtFront(rider: Rider, ctx: PowerContext)
    requires Defined(rider.physiology) && rider.physiology.criticalPower >= 0.0
    requires !NearlyDepleted(rider.physiology)
    requires ctx.atFront.GetOr(false)
    ensures ChoosePower(rider, ctx) == Min(rider.physiology.sprintPower, 1.1 * AdjustedCp(rider.physiology))
  {
  }

  /** Mid-group, 2 to 5 m behind a wheel with W' healthy: exactly adjusted CP. */
  lemma HoldAtThreshold(rider: Rider, ctx: PowerContext)
    requires Defined(rider.physiology)
    requires !NearlyDepleted(rider.physiology)
    requires DraftGap <= ctx.gap.GetOr(0.0) <= ChaseGap && !ctx.atFront.GetOr(false)
    ensures ChoosePower(rider, ctx) == AdjustedCp(rider.physiology)
  {
  }

  /** Only the gap and front flag matter, and leaving them out is the same as
      passing a gap of 0 and `at_front = False`. */
  lemma MissingEntriesDefault(rider: Rider, ctx: PowerContext, other: PowerContext)
    requires Defined(rider.physiology)
    requires other.gap == Some(ctx.gap.GetOr(0.0)) && other.atFront == Some(ctx.atFront.GetOr(false))
    ensures ChoosePower(rider, ctx) == ChoosePower(rider, other)
    ensures ChoosePower(rider, ctx.(gap := None, atFront := None))
         == ChoosePower(rider, ctx.(gap := Some(0.0), atFront := Some(false)))
  {
  }
}

=== FILE: routes.dfy ===
/** The course: a sequence of constant-gradient segments laid end to end
    (cycling_sim/route.py). */
module Routes {

  datatype Segment = Segment(length: real, gradient: real)

  /** `totalLength` is fixed when the route is built. */
  datatype Route = Route(segments: seq<Segment>, totalLength: real)

  /** Sum of the segment lengths, accumulated front to back. */
  function Sum(segs: seq<Segment>): real {
    if segs == [] then 0.0 else Sum(segs[..|segs| - 1]) + segs[|segs| - 1].length
  }

  /** Distance from the start to the end of segment `k`. */
  function EndOf(segs: seq<Segment>, k: nat): real
    requires k < |segs|
  {
    Sum(segs[..k + 1])
  }

  lemma EndOfStep(segs: seq<Segment>, k: nat)
    requires k < |segs|
    ensures EndOf(segs, k) == Sum(segs[..k]) + segs[k].length
  {
    assert segs[..k + 1][..k] == segs[..k];
  }

  /** `Route(segments)`: the total length is where the last segment ends. */
  function MakeRoute(segs: seq<Segment>): (r: Route)
    ensures r.segments == segs
    ensures segs == [] ==> r.totalLength == 0.0
    ensures segs != [] ==> r.totalLength == EndOf(segs, |segs| - 1)
  {
    assert segs[..|segs|] == segs;
    Route(segs, Sum(segs))
  }

  /** The loop of `gradient_at`: `pos` is the distance at which segment `k`
      starts. Returns the index of the segment whose gradient is reported:
      the first segment from `k` on that ends at or beyond `p`, or the last
      segment when none does. */
  function ScanFrom(segs: seq<Segment>, k: nat, pos: real, p: real): (i: nat)
    requires 0 < |segs| && k <= |segs|
    requires pos == Sum(segs[..k])
    ensures k <= i || i == |segs| - 1
    ensures i < |segs|
    ensures forall j :: k <= j < i ==> p > EndOf(segs, j)
    ensures p <= EndOf(segs, i) || (i == |segs| - 1 && forall j :: k <= j < |segs| ==> p > EndOf(segs, j))
    decreases |segs| - k
  {
    if k == |segs| then |segs| - 1
    else
      EndOfStep(segs, k);
      if p <= pos + segs[k].length then k
      else ScanFrom(segs, k + 1, pos + segs[k].length, p)
  }

  /** Index of the segment `gradient_at(p)` reads. An empty route is an
      IndexError in the source, hence the precondition. */
  function SegmentIndex(route: Route, p: real): (i: nat)
    requires |route.segments| > 0
    ensures i < |route.segments|
    ensures forall j :: 0 <= j < i ==> p > EndOf(route.segments, j)
    ensures p <= EndOf(route.segments, i) || i == |route.segments| - 1
  {
    assert route.segments[..0] == [];
    ScanFrom(route.segments, 0, 0.0, p)
  }

  /** `Route.gradient_at`. */
  function GradientAt(route: Route, p: real): (g: real)
    requires |route.segments| > 0
    ensures exists i :: 0 <= i < |route.segments| && g == route.segments[i].gradient
  {
    route.segments[SegmentIndex(route, p)].gradient
  }

  lemma {:induction false} EndOfMonotone(segs: seq<Segment>, j: nat, k: nat)
    requires forall i :: 0 <= i < |segs| ==> segs[i].length >= 0.0
    requires j <= k < |segs|
    ensures EndOf(segs, j) <= EndOf(segs, k)
  {
    if j < k {
      EndOfStep(segs, k);
      assert segs[..k] == segs[..k - 1 + 1];
      EndOfMonotone(segs, j, k - 1);
    }
  }

  /** `gradient_at` is a step function: every position from just past the end
      of segment `k-1` up to and including the end of segment `k` reads the
      gradient of segment `k`. For `k == 0` this covers every position up to
      the first segment's length, negative ones included; a position exactly
      on a boundary reads the earlier segment, since the comparison is `<=`. */
  lemma GradientWithinSegment(route: Route, k: nat, p: real)
    requires forall i :: 0 <= i < |route.segments| ==> route.segments[i].length >= 0.0
    requires k < |route.segments|
    requires k == 0 || EndOf(route.segments, k - 1) < p
    requires p <= EndOf(route.segments, k)
    ensures GradientAt(route, p) == route.segments[k].gradient
  {
    var i := SegmentIndex(route, p);
    if i < k {
      EndOfMonotone(route.segments, i, k - 1);
    }
  }

  /** A position at or before the first segment's end reads its gradient. */
  lemma GradientAtStart(route: Route, p: real)
    requires |route.segments| > 0
    requires p <= route.segments[0].length
    ensures GradientAt(route, p) == route.segments[0].gradient
  {
    EndOfStep(route.segments, 0);
  }

  /** Past the end of the course the last segment's gradient is reported. */
  lemma GradientBeyondEnd(route: Route, p: real)
    requires |route.segments| > 0
    requires forall i :: 0 <= i < |route.segments| ==> route.segments[i].length >= 0.0
    requires route.totalLength == Sum(route.segments)
    requires p > route.totalLength
    ensures GradientAt(route, p) == route.segments[|route.segments| - 1].gradient
  {
    var segs := route.segments;
    var i := SegmentIndex(route, p);
    assert segs[..|segs| - 1 + 1] == segs;
    if i < |segs| - 1 {
      EndOfMonotone(segs, i, |segs| - 1);
    }
  }
}

=== FILE: sorting.dfy ===
/** Stable sorting of a sequence by a strict "goes before" relation, the
    behaviour of Python's `list.sort` (which stays stable with
    `reverse=True`). Elements neither of which goes before the other keep
    their original relative order. */
module Sorting {

  /** `lt` is irreflexive and transitive. */
  ghost predicate StrictOrder<T(!new)>(lt: (T, T) -> bool) {
    && (forall x :: !lt(x, x))
    && (forall x, y, z :: lt(x, y) && lt(y, z) ==> lt(x, z))
  }

  /** No element goes strictly before an element earlier in `s`. */
  ghost predicate SortedBy<T>(lt: (T, T) -> bool, s: seq<T>) {
    forall i, j :: 0 <= i < j < |s| ==> !lt(s[j], s[i])
  }

  /** Inserts `x` just before the first element it goes strictly before,
      that is, after every element that ties with it. */
  function Insert<T>(x: T, s: seq<T>, lt: (T, T) -> bool): (r: seq<T>)
    ensures |r| == |s| + 1
    ensures multiset(r) == multiset(s) + multiset{x}
  {
    if s == [] || lt(x, s[0]) then [x] + s
    else
      assert s == [s[0]] + s[1..];
      [s[0]] + Insert(x, s[1..], lt)
  }

  /** Insertion sort: sorts all but the last element, then inserts the last.
      Processing elements in their original order is what makes it stable. */
  function SortBy<T>(s: seq<T>, lt: (T, T) -> bool): (r: seq<T>)
    ensures |r| == |s|
    ensures multiset(r) == multiset(s)
  {
    if s == [] then []
    else
      assert s == s[..|s| - 1] + [s[|s| - 1]];
      Insert(s[|s| - 1], SortBy(s[..|s| - 1], lt), lt)
  }

  lemma {:induction false} InsertSorted<T(!new)>(x: T, s: seq<T>, lt: (T, T) -> bool)
    requires StrictOrder(lt)
    requires SortedBy(lt, s)
    ensures SortedBy(lt, Insert(x, s, lt))
  {
    if s == [] || lt(x, s[0]) {
      var r := [x] + s;
      forall j | 0 < j < |r|
        ensures !lt(r[j], x)
      {
        if lt(s[j - 1], x) {
          assert false;
        }
      }
    } else {
      InsertSorted(x, s[1..], lt);
      var t := Insert(x, s[1..], lt);
      var r := [s[0]] + t;
      forall j | 0 < j < |r|
        ensures !lt(r[j], s[0])
      {
        assert r[j] in multiset(t);
        assert r[j] in multiset(s[1..]) + multiset{x};
        if r[j] != x {
          assert r[j] in s[1..];
        }
      }
    }
  }

  /** The output of `SortBy` is sorted. */
  lemma {:induction false} SortBySorted<T(!new)>(s: seq<T>, lt: (T, T) -> bool)
    requires StrictOrder(lt)
    ensures SortedBy(lt, SortBy(s, lt))
  {
    if s != [] {
      SortBySorted(s[..|s| - 1], lt);
      InsertSorted(s[|s| - 1], SortBy(s[..|s| - 1], lt), lt);
    }
  }

  /** An element that goes before none of `s` is placed at the end. */
  lemma {:induction false} InsertAfterTies<T>(x: T, s: seq<T>, lt: (T, T) -> bool)
    requires forall i :: 0 <= i < |s| ==> !lt(x, s[i])
    ensures Insert(x, s, lt) == s + [x]
  {
    if s != [] {
      InsertAfterTies(x, s[1..], lt);
      assert [s[0]] + (s[1..] + [x]) == s + [x];
    }
  }

  /** Stability: sorting an already sorted sequence changes nothing. In
      particular a sequence whose elements all tie keeps its order. */
  lemma {:induction false} SortBySortedIsIdentity<T>(s: seq<T>, lt: (T, T) -> bool)
    requires SortedBy(lt, s)
    ensures SortBy(s, lt) == s
  {
    if s != [] {
      var p := s[..|s| - 1];
      assert SortedBy(lt, p);
      SortBySortedIsIdentity(p, lt);
      InsertAfterTies(s[|s| - 1], p, lt);
      assert p + [s[|s| - 1]] == s;
    }
  }

  /** A strict order whose incomparability is an equivalence ("ties"):
      whenever `x` goes before `y`, every `z` goes after `x` or before `y`. */
  ghost predicate StrictWeakOrder<T(!new)>(lt: (T, T) -> bool) {
    && StrictOrder(lt)
    && (forall x, y, z {:trigger lt(x, z), lt(z, y)} :: lt(x, y) ==> lt(x, z) || lt(z, y))
  }

  /** Neither goes before the other. */
  predicate Tied<T>(lt: (T, T) -> bool, x: T, y: T) {
    !lt(x, y) && !lt(y, x)
  }

  /** The elements of `s` that tie with `x`, in their order in `s`. */
  function TiesWith<T>(s: seq<T>, x: T, lt: (T, T) -> bool): (r: seq<T>)
    ensures |r| <= |s|
  {
    if s == [] then []
    else (if Tied(lt, x, s[0]) then [s[0]] else []) + TiesWith(s[1..], x, lt)
  }

  lemma TiesWithSingle<T>(h: T, x: T, lt: (T, T) -> bool)
    ensures TiesWith([h], x, lt) == if Tied(lt, x, h) then [h] else []
  {
    assert [h][1..] == [];
  }

  /** The tail of a sorted sequence is sorted. */
  lemma TailSorted<T>(s: seq<T>, lt: (T, T) -> bool)
    requires s != [] && SortedBy(lt, s)
    ensures SortedBy(lt, s[1..])
  {
    forall i, j | 0 <= i < j < |s[1..]|
      ensures !lt(s[1..][j], s[1..][i])
    {
      assert s[1..][i] == s[i + 1] && s[1..][j] == s[j + 1];
    }
  }

  lemma {:induction false} TiesWithConcat<T>(a: seq<T>, b: seq<T>, x: T, lt: (T, T) -> bool)
    ensures TiesWith(a + b, x, lt) == TiesWith(a, x, lt) + TiesWith(b, x, lt)
  {
    if a != [] {
      var head := if Tied(lt, x, a[0]) then [a[0]] else [];
      assert (a + b)[0] == a[0];
      assert (a + b)[1..] == a[1..] + b;
      TiesWithConcat(a[1..], b, x, lt);
      calc {
        TiesWith(a + b, x, lt);
        head + TiesWith(a[1..] + b, x, lt);
        head + (TiesWith(a[1..], x, lt) + TiesWith(b, x, lt));
        (head + TiesWith(a[1..], x, lt)) + TiesWith(b, x, lt);
        TiesWith(a, x, lt) + TiesWith(b, x, lt);
      }
    } else {
      assert a + b == b;
    }
  }

  /** Nothing in a sorted `s` whose first element comes after `y` ties with
      an `x` that `y` ties with. */
  lemma {:induction false} NoTiesIn<T(!new)>(s: seq<T>, x: T, lt: (T, T) -> bool, y: T)
    requires StrictWeakOrder(lt) && SortedBy(lt, s)
    requires s != [] && lt(y, s[0]) && Tied(lt, x, y)
    ensures TiesWith(s, x, lt) == []
    decreases |s|
  {
    var w := s[0];
    // `y` goes before `w`, so `w` does not tie with `y`, nor with `x`.
    assert lt(y, x) || lt(x, w);
    if |s| > 1 {
      var rest := s[1..];
      var v := s[1];
      assert !lt(v, w);
      // Every later element goes after or ties with `w`, hence after `y`.
      assert lt(y, v) || lt(v, w);
      assert rest[0] == v;
      TailSorted(s, lt);
      NoTiesIn(rest, x, lt, y);
    }
  }

  /** Inserting `y` appends it to the elements that tie with `x` when it
      ties with `x` itself, and leaves them alone otherwise. */
  lemma {:induction false} InsertKeepsTies<T(!new)>(y: T, s: seq<T>, x: T, lt: (T, T) -> bool)
    requires StrictWeakOrder(lt) && SortedBy(lt, s)
    ensures TiesWith(Insert(y, s, lt), x, lt)
         == TiesWith(s, x, lt) + (if Tied(lt, x, y) then [y] else [])
  {
    var t := if Tied(lt, x, y) then [y] else [];
    if s == [] || lt(y, s[0]) {
      if s != [] && Tied(lt, x, y) {
        NoTiesIn(s, x, lt, y);
      }
      calc {
        TiesWith(Insert(y, s, lt), x, lt);
        TiesWith([y] + s, x, lt);
        { TiesWithConcat([y], s, x, lt); TiesWithSingle(y, x, lt); }
        t + TiesWith(s, x, lt);
        { assert t == [] || TiesWith(s, x, lt) == []; }
        TiesWith(s, x, lt) + t;
      }
    } else {
      var h := s[0];
      var rest := s[1..];
      TailSorted(s, lt);
      calc {
        TiesWith(Insert(y, s, lt), x, lt);
        TiesWith([h] + Insert(y, rest, lt), x, lt);
        { TiesWithConcat([h], Insert(y, rest, lt), x, lt); }
        TiesWith([h], x, lt) + TiesWith(Insert(y, rest, lt), x, lt);
        { InsertKeepsTies(y, rest, x, lt); }
        TiesWith([h], x, lt) + (TiesWith(rest, x, lt) + t);
        (TiesWith([h], x, lt) + TiesWith(rest, x, lt)) + t;
        { TiesWithConcat([h], rest, x, lt); assert [h] + rest == s; }
        TiesWith(s, x, lt) + t;
      }
    }
  }

  lemma SortByLast<T>(s: seq<T>, lt: (T, T) -> bool)
    requires s != []
    ensures SortBy(s, lt) == Insert(s[|s| - 1], SortBy(s[..|s| - 1], lt), lt)
  {
  }

  /** `a` and `b` list the elements of every tie class in the same order. */
  ghost predicate SameTies<T(!new)>(a: seq<T>, b: seq<T>, lt: (T, T) -> bool) {
    forall x :: TiesWith(a, x, lt) == TiesWith(b, x, lt)
  }

  /** Stability: for every `x`, the elements tying with `x` come out of the
      sort in the order they went in. With `SortBySorted` and the
      permutation property, this fixes the output completely. */
  lemma {:induction false} SortByStable<T(!new)>(s: seq<T>, x: T, lt: (T, T) -> bool)
    requires StrictWeakOrder(lt)
    ensures TiesWith(SortBy(s, lt), x, lt) == TiesWith(s, x, lt)
  {
    if s != [] {
      var init := s[..|s| - 1];
      var last := s[|s| - 1];
      var sorted := SortBy(init, lt);
      var t := if Tied(lt, x, last) then [last] else [];
      calc {
        TiesWith(SortBy(s, lt), x, lt);
        { SortByLast(s, lt); }
        TiesWith(Insert(last, sorted, lt), x, lt);
        { SortBySorted(init, lt); InsertKeepsTies(last, sorted, x, lt); }
        TiesWith(sorted, x, lt) + t;
        { SortByStable(init, x, lt); TiesWithSingle(last, x, lt); }
        TiesWith(init, x, lt) + TiesWith([last], x, lt);
        { TiesWithConcat(init, [last], x, lt); }
        TiesWith(init + [last], x, lt);
      }
      assert init + [last] == s;
    }
  }

  /** Every element of a permutation of `s` is an element of `s`. */
  lemma PermutationMembers<T>(s: seq<T>, t: seq<T>)
    requires multiset(s) == multiset(t)
    ensures forall i :: 0 <= i < |t| ==> t[i] in s
  {
    forall i | 0 <= i < |t|
      ensures t[i] in s
    {
      assert t[i] in multiset(t);
    }
  }
}
